=== FILE: README.md ===
# GradeSpark community edition: a Dafny model of its core

GradeSpark's community edition is a desktop grading assistant. It has a demo
mode that grades bundled CSV datasets with simulated scores. This project
models the parts of that program that decide something, and proves
properties of them:

- **The demo dataset catalog and loader** (`DemoDataManager`). It scans a
  `grade/subject/<assignment>.csv` directory tree into a sorted catalog and
  composes dataset paths. Its loader accepts a table only when the header is
  exactly `Student Name, Score, Feedback, Rubric`, then counts submitted and
  missing rows (module `DemoData`). Python's string order and `sorted` are
  modelled in `StringOrder`.
- **The preference store** (`SettingsStore`). It overlays a JSON file on
  fixed defaults, supports get and set by key, and saves. It also imports an
  `OPENAI_API_KEY` from a `.env` file once, guarded by the persisted
  `env_imported` flag (module `Settings`).
- **The demo grading run** (module `Grading`). This covers:
  - the simulated grading, with its four score bands, feedback sentences and
    rubric lines;
  - the progress percentage and message emitted after each student;
  - the completion summary, with its counts and a preview of up to five
    missing names;
  - the score colour buckets of the results table.
- **Two dialogs** (module `Dialogs`): the three-step guided tour, and the
  required-field check of the early-access lead form.

The model treats the filesystem, the settings file and the `.env` file as
values. Loading and saving are pure functions, and the one-time import is a
state transition. The random score drawn for each row is an input.
`PyText` models the Python string operations the code relies on: `strip`,
`startswith`, `in`, `split('=', 1)`, `", ".join` and decimal `str(int)`.
`Optional` provides the `Option` type.

Two readings of "not submitted" coexist in the source:

- The loader (`demo_data_manager.py:51`) and the completion summary
  (`gradespark_gui.py:983-985`) count a row as missing when its score EQUALS
  `Not submitted`.
- The simulated grading (`gradespark_gui.py:61`) treats a row as missing when
  its score CONTAINS that text.

`Grading.LoaderMissingAtMostSummaryMissing` proves that the summary after
grading never reports fewer missing students than the loader.
`Grading.ReadingsDiverge` shows a score (`Not submitted (late)`) on which the
two counts differ.

## Model

| member | source | states |
|---|---|---|
| StringOrder.BelowTransitive | demo_data_manager.py:14 | Python's `<=` on strings is transitive, so `sorted` is well defined |
| StringOrder.BelowTotal | demo_data_manager.py:14 | any two strings are comparable |
| StringOrder.BelowAntisymmetric | demo_data_manager.py:14 | two strings each `<=` the other are equal |
| StringOrder.LeastExists | demo_data_manager.py:20 | a non-empty multiset of strings has a least element |
| StringOrder.SortMultiset | demo_data_manager.py:20 | `sorted(list)` is a sorted permutation of the list |
| StringOrder.SortSet | demo_data_manager.py:14 | `sorted(d.keys())` is sorted, holds exactly the keys, and repeats none |
| StringOrder.SortedPermutationUnique | demo_data_manager.py:20 | two sorted permutations of the same strings are equal, so the result of `sorted` is unique |
| PyText.StripLeft | settings_store.py:43 | the result is a suffix of the input, and the dropped prefix is all whitespace |
| PyText.StripRight | settings_store.py:43 | the result is a prefix of the input, and the dropped suffix is all whitespace |
| PyText.Strip | gradespark_gui.py:330-332 | a non-empty stripped string neither starts nor ends with whitespace |
| PyText.StripInfix | gradespark_gui.py:330-332 | `strip()` returns an infix of its input, and only whitespace surrounds it |
| PyText.StripIdempotent | gradespark_gui.py:330-332 | stripping twice is stripping once |
| PyText.StripEmptyIffBlank | gradespark_gui.py:334 | `not s.strip()` holds exactly when `s` is all whitespace (or empty) |
| PyText.Find | settings_store.py:43 | the first occurrence of a character, or none exactly when it is absent |
| PyText.AfterFirst | settings_store.py:43 | `split(c, 1)[1]` is the text after the first `c`, and exists exactly when `c` occurs |
| PyText.Join | gradespark_gui.py:992 | joining no parts gives the empty string, one part gives that part, and more parts start with the first and end with the last |
| PyText.JoinAppend | gradespark_gui.py:992 | joining two non-empty runs of parts is joining each with exactly one separator between them |
| PyText.JoinSnoc | gradespark_gui.py:992-994 | joining one more part appends the separator and that part |
| PyText.NatToString | gradespark_gui.py:80 | `str(n)` is a non-empty string of digits with no leading zero |
| PyText.DigitsOfNatToString | gradespark_gui.py:80 | the digits of `str(n)` denote `n` |
| PyText.ParseNatToString | gradespark_gui.py:1161 | parsing `str(n)` as a number gives `n` back |
| PyText.ParseNegatedNatToString | gradespark_gui.py:1161 | parsing `-` followed by `str(n)` gives `-n` |
| PyText.ParseInt | gradespark_gui.py:1160-1163 | a narrowing of `float()` to decimal integers: digits read as their value, and a leading `+` or `-` keeps or negates it; anything else, leading whitespace included, does not parse |
| DemoData.LastIndexOf | demo_data_manager.py:83 | the last occurrence of a character, or none exactly when it is absent |
| DemoData.Stem | demo_data_manager.py:83 | the stem is a prefix of the name; a shorter stem is cut at the last dot, which is neither first nor last; an unchanged name has no such dot |
| DemoData.StemOfCsvName | demo_data_manager.py:83-84 | a `*.csv` name is its stem plus `.csv`, except that the name `.csv` is its own stem |
| DemoData.CsvStems | demo_data_manager.py:82-86 | a stem is collected exactly when some listed name is a regular `*.csv` file with that stem |
| DemoData.Assignments | demo_data_manager.py:82-86 | the assignments of a subject directory come out sorted |
| DemoData.AssignmentsMembers | demo_data_manager.py:82-86 | an assignment is listed exactly when some regular `*.csv` file of the directory has it as its stem |
| DemoData.AssignmentsCount | demo_data_manager.py:82-86 | one assignment per data file, duplicates kept |
| DemoData.CsvStemsLength | demo_data_manager.py:82-86 | over distinct names, one stem per data file among them |
| DemoData.BuildCatalog | demo_data_manager.py:67-94 | a missing root gives an empty catalog, and every catalogued grade is a visible directory with a kept subject |
| DemoData.CatalogEntry | demo_data_manager.py:77-92 | a catalog entry `grade/subject` is the assignment list of that subject directory |
| DemoData.BuildCatalogComplete | demo_data_manager.py:73-92 | a visible grade with a visible subject holding a data file is catalogued, with that subject and that assignment |
| DemoData.CatalogShape | demo_data_manager.py:74-92 | hidden entries and plain files never become grades or subjects, and no empty level is kept |
| DemoData.Grades | demo_data_manager.py:13-14 | `get_grades` lists every grade of the catalog exactly once, sorted |
| DemoData.SubjectsOf | demo_data_manager.py:16-17 | `get_subjects` lists each of a grade's subjects exactly once, sorted, and is empty for an unknown grade |
| DemoData.AssignmentsOf | demo_data_manager.py:19-20 | `get_assignments` is a sorted permutation of the stored list, and is empty for an unknown grade or subject |
| DemoData.AssignmentsOfBuilt | demo_data_manager.py:19-20 | on a scanned catalog, `get_assignments` returns exactly the stored list |
| DemoData.DataExists | demo_data_manager.py:22-23 | `check_data_exists` holds exactly when the root exists and the catalog has a grade |
| DemoData.NonEmptyCatalogHoldsData | demo_data_manager.py:22-23 | a non-empty catalog points at a data file below a visible subject of a visible grade |
| DemoData.HoldsDataNonEmptyCatalog | demo_data_manager.py:22-23 | such a data file makes the catalog non-empty |
| DemoData.DataExistsIff | demo_data_manager.py:22-23 | `check_data_exists` holds exactly when the root exists and holds a visible grade with a visible subject that has a data file |
| DemoData.DatasetPath | demo_data_manager.py:96-99 | no path exactly when a part is empty; otherwise `grade/subject/<name>`, where the name matches `*.csv`, has the assignment as its stem and is exactly four characters longer than it, so it is `<assignment>.csv` even for the assignment `.csv` |
| DemoData.Lookup | demo_data_manager.py:27 | nothing resolves below a missing root; the empty path is the root; a resolved path starts with an entry of the root |
| DemoData.LookupSnoc | demo_data_manager.py:34 | one more name resolves exactly when the path before it names a directory holding that name |
| DemoData.LookupThree | demo_data_manager.py:99 | resolving the three-part path walks grade, then subject, then file name |
| DemoData.DemoFile | demo_data_manager.py:25-30 | `get_demo_file` returns the dataset path only when it resolves; otherwise `None` |
| DemoData.DemoFileAt | demo_data_manager.py:25-30 | for non-empty parts, a file is found exactly when `grade/subject/<assignment>.csv` exists |
| DemoData.ListedAssignmentResolves | demo_data_manager.py:25-30 | every catalogued assignment except `.csv` resolves to a regular file |
| DemoData.BareExtensionListedButMissing | demo_data_manager.py:82-99 | a file named `.csv` is listed as assignment `.csv`, whose path `.csv.csv` does not resolve |
| DemoData.CountSubmitted | demo_data_manager.py:51 | the submitted count is at most the row count, is zero exactly when every score is the sentinel, and is the row count exactly when none is |
| DemoData.MissingRows | demo_data_manager.py:51-52 | the missing rows are sentinel rows, and a row is among them exactly when it is a sentinel row of the table |
| DemoData.SubmittedPlusMissing | demo_data_manager.py:50-52 | submitted plus missing is the total |
| DemoData.CountSubmittedAppend | demo_data_manager.py:51 | the submitted count of two tables stacked is the sum of their counts |
| DemoData.CountSubmittedCounts | demo_data_manager.py:51 | the submitted count is the number of positions whose score is not `Not submitted` |
| DemoData.MissingRowsAppend | demo_data_manager.py:51-52 | the missing rows of two tables stacked are those of the first followed by those of the second, and a single row is kept exactly when it is a sentinel row: the sentinel rows in table order, each as often as it occurs |
| DemoData.LoadCsv | demo_data_manager.py:32-58 | rows are returned exactly when the path resolves to a parseable file with the expected header; the frame is then that file's rows, the submitted count is their count of non-sentinel scores, and the counts split the total; every failure is `(None, 0, 0, 0)` |
| DemoData.DatasetSummary | demo_data_manager.py:60-64 | the summary exists exactly when the load succeeds, and it carries the load's three counts |
| DemoData.LoadTwoRowExample | demo_data_manager.py:32-64 | a two-row table with one hand-in reports 1 submitted, 2 in total and 1 missing |
| DemoData.RenamedHeaderFails | demo_data_manager.py:38-48 | a renamed first column makes the load fail |
| Settings.Load | settings_store.py:23-33 | a stored object overlays the defaults key by key; a stored array of pairs sets them in order, so the last pair of a key wins; anything `update` refuses, a missing and an unreadable file give exactly the defaults; every default key is present |
| Settings.PairsOf | settings_store.py:29 | an array is read as pairs exactly when every element is one, and then element `i` gives pair `i` |
| Settings.UpdatePairs | settings_store.py:29 | after `update` with pairs, the keys are the old ones plus the paired ones; a key holds the value of its last pair, and an unpaired key keeps its value |
| Settings.Item | settings_store.py:61-63 | `store[key]` is the stored value, or `None` for an absent key |
| Settings.Get | settings_store.py:51-52 | `get` returns the stored value, or the default for an absent key |
| Settings.Set | settings_store.py:54-59 | only the given key changes |
| Settings.GetAfterSet | settings_store.py:51-55 | `get` after `set` reads the value set, and other keys read as before |
| Settings.Save | settings_store.py:65-70 | a writable file receives the whole document; otherwise the file is unchanged |
| Settings.SaveLoadRoundTrip | settings_store.py:23-30 | loading a saved complete document gives it back |
| Settings.EditSaveReload | settings_store.py:23-70 | a loaded document, edited by `set` and saved, loads back as edited |
| Settings.StripKeyLine | settings_store.py:42-43 | a key line keeps its prefix after `strip`, and the prefix's `=` is the first `=` |
| Settings.KeyValue | settings_store.py:43 | the imported key is the stripped line minus the `OPENAI_API_KEY=` prefix |
| Settings.LastKeyLine | settings_store.py:41-44 | the position of the last key line, or none exactly when no line is a key line |
| Settings.LastKey | settings_store.py:41-44 | a key is imported exactly when some line is a key line, and it is the value of a key line with no key line after it |
| Settings.ApplyKeyLines | settings_store.py:41-44 | after reading `.env`, `api_key` holds the last key line's value, the document is unchanged without a key line, and no other key changes |
| Settings.ApplyKeyLinesStep | settings_store.py:41-44 | reading one more line: a key line overwrites `api_key`, and any other line changes nothing |
| Settings.ApplyKeyLinesFrame | settings_store.py:41-44 | reading `.env` lines changes no key other than `api_key` |
| Settings.ScanKeyLines | settings_store.py:41-44 | the line loop leaves `api_key` holding the last key line's value, or changes nothing without one |
| Settings.ImportFromEnvOnce | settings_store.py:35-49 | nothing changes once imported or without a readable `.env`; otherwise the key lines are applied, the flag is set and the document is saved |
| Settings.ImportSetsKey | settings_store.py:35-47 | after an import, the flag is set and `api_key` holds the last key line's value (or its old value); no other key changes |
| Settings.ImportIdempotent | settings_store.py:36-37 | importing a second time changes neither the document nor the file |
| Settings.Open | settings_store.py:7-21 | a constructed store holds every default key |
| Settings.OpenTwice | settings_store.py:7-49 | constructing the store again from what the first construction persisted changes nothing and imports nothing |
| Settings.FreshStoreIsDefaults | settings_store.py:9-33 | with no settings file and no `.env`, the store holds exactly the defaults |
| Settings.DarkModeSurvivesRestart | settings_store.py:23-70 | dark mode set, saved and reopened reads back as set, and every other default is intact |
| Settings.CorruptFileLoadsDefaults | settings_store.py:24-33 | an unreadable file, a number, a boolean, `null`, a string, an empty array and an array with an element that is not a pair all load as the defaults |
| Settings.PairArrayMerges | settings_store.py:28-30 | `[["dark_mode_enabled", true]]` turns dark mode on and leaves every other default as it is |
| Grading.RecordOf | gradespark_gui.py:58-61 | a loaded row's record yields its name and score text back to the simulation |
| Grading.BandOf | gradespark_gui.py:93-100 | the band is Excellent from 90, Good from 80 to 89, Satisfactory from 70 to 79, and Needs Improvement below 70 |
| Grading.BandMonotone | gradespark_gui.py:93-100 | a higher score never falls in a worse band |
| Grading.Feedback | gradespark_gui.py:91-102 | the feedback opens with its band's verdict |
| Grading.Rubric | gradespark_gui.py:104-113 | the rubric opens with its band's content rating |
| Grading.TextsShowBand | gradespark_gui.py:91-113 | feedback and rubric each reveal the band through their first letter of text |
| Grading.FeedbackAndRubricAgree | gradespark_gui.py:91-113 | two scores get the same feedback exactly when they get the same rubric, exactly when they fall in the same band |
| Grading.GradeRecord | gradespark_gui.py:58-83 | the graded row keeps the student name, with `Unknown` when the name is absent |
| Grading.GradeRecordSpec | gradespark_gui.py:61-83 | a row that looks unsubmitted becomes the sentinel row with empty texts; any other gets a score that reads back as the draw, with that score's feedback and rubric, never in the lowest band |
| Grading.GradedSentinelIff | gradespark_gui.py:61-83 | a graded row's score is the sentinel exactly when its record looked unsubmitted |
| Grading.GradeRows | gradespark_gui.py:54-89 | the run returns one row per record |
| Grading.GradeRowsAt | gradespark_gui.py:57-83 | row `i` of the run is record `i` graded with draw `i` |
| Grading.ProgressPercent | gradespark_gui.py:86 | the percentage is at most 100, and reaches 100 exactly after the last record |
| Grading.PercentBounds | gradespark_gui.py:86 | the same bounds on the integer quotient |
| Grading.ProgressMonotone | gradespark_gui.py:86 | the percentage never decreases during a run |
| Grading.SimulateGrading | gradespark_gui.py:51-89 | the loop returns every record graded in order, and signal `i` carries the percentage after record `i` and `Grading <name>...` |
| Grading.MissingNames | gradespark_gui.py:985 | name `i` is the name of the `i`-th row whose score is exactly the sentinel |
| Grading.MissingNamesAppend | gradespark_gui.py:985 | the missing names of two runs of rows are those of the first followed by those of the second |
| Grading.PreviewOf | gradespark_gui.py:991-994 | the preview shows the first five names, or all of them when there are at most five, and is marked truncated exactly when there are more than five |
| Grading.PreviewText | gradespark_gui.py:992-994 | for shown names, the text is every shown name, followed by `...` when names were cut off, joined with `, `; it starts with the first shown name and ends in `, ...` when cut off, otherwise with the last name |
| Grading.CompletionSummary | gradespark_gui.py:983-995 | submitted plus missing is the number of rows; a third line naming the missing students appears exactly when some are missing |
| Grading.SixMissingPreview | gradespark_gui.py:991-995 | for any six missing students, the line names the first five separated by `, ` and ends in `, ...` |
| Grading.MissingRowsCovered | gradespark_gui.py:983-985 | rows whose sentinel positions are covered by another's have no more missing rows |
| Grading.LoaderMissingAtMostSummaryMissing | gradespark_gui.py:983-985 | after grading a loaded table, the summary reports at least as many missing students as the loader counted |
| Grading.ReadingsDiverge | gradespark_gui.py:61-64 | a score such as `Not submitted (late)` is submitted to the loader but missing after grading |
| Grading.ColourMonotone | gradespark_gui.py:1165-1171 | a higher score never gets a lower colour bucket |
| Grading.ScoreColour | gradespark_gui.py:1158-1171 | red exactly for a score that is not a number or at most 65; blue exactly above 89 |
| Grading.ColourBands | gradespark_gui.py:1158-1171 | a score that does not read as a number is red; otherwise red up to 65, yellow up to 75, green up to 89, and blue exactly for the top feedback band (90 and above) |
| Grading.ScoreTextColour | gradespark_gui.py:1158-1171 | a cell text is red exactly when it does not read as a number or reads as at most 65; a digit string is coloured by its value |
| Grading.ScoreTextColourOfNat | gradespark_gui.py:1158-1171 | a score written as `str(n)` gets the bucket of `n` |
| Grading.GradedRowRedIffMissing | gradespark_gui.py:1158-1171 | after grading, a score is red exactly when it is the sentinel, since every drawn score is above 65 |
| Dialogs.Refresh | gradespark_gui.py:488-498 | the view shows the current step's title and body, and the button reads `Finish` exactly on the last step and `Next` otherwise |
| Dialogs.FirstAndLastProgress | gradespark_gui.py:492-494 | the progress line reads `Step 1 of 3` first and `Step 3 of 3` last |
| Dialogs.Advance | gradespark_gui.py:500-505 | `Next` accepts exactly on the last step and otherwise moves one step on |
| Dialogs.RunClosed | gradespark_gui.py:476-482 | a closed dialog takes no more presses |
| Dialogs.RunFromStep | gradespark_gui.py:476-505 | from step `i`, the remaining number of presses always closes the tour, and it is accepted exactly when all of them were `Next` |
| Dialogs.TourEndsWithinThreePresses | gradespark_gui.py:437-505 | three presses end the tour, which is accepted exactly when all three were `Next` |
| Dialogs.SubmitLead | gradespark_gui.py:328-361 | a refused form shows the warning `Incomplete Form` with the required-fields message; a sent lead carries the chosen role, size, timeline, feature, time stamp and platform, and the thanks message names the stripped name |
| Dialogs.SubmitRefusesBlank | gradespark_gui.py:328-340 | the form is refused exactly when name, email or school is blank or whitespace only |
| Dialogs.SentFieldsAreTrimmed | gradespark_gui.py:330-352 | a sent lead's required fields are the stripped inputs, non-empty and trimmed at both ends, and resubmitting them sends the same lead |

## Left out

- The Qt user interface is not modelled: windows, layouts, style sheets, tabs, tables and message boxes. Only the texts and decisions above are.
- Sending a lead to the webhook, `save_lead_locally` and the background thread are left out; they are I/O.
- `_reset_form` is left out: clearing the text boxes decides nothing.
- Window geometry persistence, `resource_path`, logging and the application entry point are left out; they are I/O or platform glue.
- `_apply_score_styling` and the results legend are left out. They only choose presentation.
- The worker thread and signal delivery are not modelled. `SimulateGrading` returns the signals in emission order.
- Grading.ProgressPercent: reads `int((idx + 1) / total * 100)` over exact rationals. Python's floating point can land one below: 29 of 100 gives 28.
- PyText.ParseInt: reads only decimal integers, with an optional sign. `float()` also accepts surrounding whitespace (`float(" 85")` is `85.0`), decimals such as `85.5`, exponents, underscores between digits, `inf` and `nan`. The model reads all of these as not a number. Every score the simulated grading writes is a decimal integer or the sentinel.
- Grading.ScoreTextColour: inherits the narrowing of `PyText.ParseInt`. A cell holding ` 85` or `85.5` is red in the model; the source colours it by its value.
- Grading.SimulateGrading: takes one draw per record, and a draw for an unsubmitted record is ignored. The source draws only for submitted records, which changes which random numbers go where but not the set of possible outcomes.
- The random number generator and the clock are inputs: the draws, and the lead's time stamp and platform name.
- Settings.Load: JSON floats are not modelled. `dict.update` also accepts an array element that is a two-key object (its two keys become key and value), and a pair whose key is a number, a boolean or `null`. The model reads such an array as not pairs, so it loads the defaults. The source merges it.
- Settings.CorruptFileLoadsDefaults: states the defaults only for the file shapes `update` refuses. The two shapes that the source merges but `Settings.Load` does not model are listed under `Settings.Load`.
- Settings.ImportFromEnvOnce: a `.env` that fails partway through reading is modelled as unreadable as a whole. The source would keep the key lines already read in memory and skip the save.
- The directory tree is a value. A data root that exists but is a regular file, permission errors, and names containing `/` are not modelled.
- DemoData.DatasetPath: `pathlib` drops `.` parts, and `..` climbs out of the data root. `load_csv("5", ".", "quiz")` loads `5/quiz.csv`. In the model every part is an entry name, so that load fails.
- DemoData.Lookup: names compare exactly. On Windows, `glob` and `exists` ignore case, so `Quiz.CSV` would be listed and found; the model is case-sensitive.
- DemoData.MatchesCsvGlob: case-sensitive, as `glob` is on POSIX systems. On Windows it also matches `.CSV`.
- `pandas.read_csv` is modelled by what it yields: a header and text rows, or a parse failure. Type inference, NaN cells and quoting are not modelled.
- Saving is a whole-file replacement, and a failed write leaves the file as it was. A write that fails halfway is not modelled.

=== FILE: demo_data.dfy ===
/**
 The demo dataset catalog and loader (`DemoDataManager`): a scan of a
 three-level directory tree `grade/subject/<assignment>.csv` into a nested,
 sorted catalog, path composition for one dataset, and a loader that accepts a
 table only when its header is exactly `Student Name, Score, Feedback, Rubric`.

 The filesystem is a value: a directory is a map from entry names to entries,
 and a file carries what `pandas.read_csv` would make of it (a header and rows,
 or a parse failure).
 */
module DemoData {
  import opened Optional
  import opened StringOrder
  import opened PyText

  /** One student record, the four columns of a demo dataset. */
  datatype Row = Row(name: string, score: string, feedback: string, rubric: string)

  /** What reading a file as CSV yields. */
  datatype Csv = Unparseable | Table(header: seq<string>, rows: seq<Row>)

  /** A directory entry: a regular file or a directory listing. */
  datatype Entry = File(content: Csv) | Dir(entries: map<string, Entry>)

  /** The contents of one directory, keyed by entry name. */
  type Listing = map<string, Entry>

  /** `grade -> subject -> assignments`, the scanned structure. */
  type Catalog = map<string, map<string, seq<string>>>

  const ExpectedHeader: seq<string> := ["Student Name", "Score", "Feedback", "Rubric"]

  /** The score sentinel of a student who handed nothing in. */
  const NotSubmitted: string := "Not submitted"

  const CsvExtension: string := ".csv"

  // Names.

  predicate IsHidden(name: string) {
    StartsWith(name, ".")
  }

  /** Kept by the scan at the grade and subject levels: a directory whose name does not start with a dot. */
  predicate IsVisibleDir(name: string, e: Entry) {
    e.Dir? && !IsHidden(name)
  }

  /** The glob pattern `*.csv` (case-sensitive, and matching dot-files too). */
  predicate MatchesCsvGlob(name: string) {
    |name| >= |CsvExtension| && name[|name| - |CsvExtension|..] == CsvExtension
  }

  /** Index of the last `c` in `s` (`s.rfind(c)`), if any. */
  function LastIndexOf(s: string, c: char): (r: Option<nat>)
    ensures r.None? <==> c !in s
    ensures r.Some? ==> r.value < |s| && s[r.value] == c && c !in s[r.value + 1..]
    decreases |s|
  {
    if |s| == 0 then None
    else if s[|s| - 1] == c then Some(|s| - 1)
    else
      var r := LastIndexOf(s[..|s| - 1], c);
      assert r.Some? ==> s[r.value + 1..] == s[..|s| - 1][r.value + 1..] + [s[|s| - 1]];
      assert r.None? ==> s == s[..|s| - 1] + [s[|s| - 1]];
      r
  }

  /** `Path(name).stem`: the name without its last suffix; a leading dot does not start a suffix. */
  function Stem(name: string): (r: string)
    ensures |r| <= |name| && r == name[..|r|]
    ensures r != name ==> 0 < |r| < |name| - 1 && name[|r|] == '.' && '.' !in name[|r| + 1..]
    ensures r == name ==> forall i :: 0 < i < |name| - 1 && name[i] == '.' ==> '.' in name[i + 1..]
  {
    match LastIndexOf(name, '.')
    case Some(i) => if 0 < i < |name| - 1 then name[..i] else name
    case None => name
  }

  /** A `*.csv` name longer than the bare extension is its stem followed by `.csv`; the name `.csv` is its own stem. */
  lemma StemOfCsvName(name: string)
    requires MatchesCsvGlob(name)
    ensures |name| > |CsvExtension| ==> Stem(name) + CsvExtension == name
    ensures |name| == |CsvExtension| ==> Stem(name) == name
  {
    var i := |name| - |CsvExtension|;
    assert name[i..][0] == '.';
    assert name[i + 1..] == "csv";
    assert LastIndexOf(name, '.') == Some(i);
    if i > 0 {
      assert name == name[..i] + name[i..];
    }
  }

  // The scan.

  /** A data file of a subject directory: a regular file matching `*.csv`. */
  predicate IsDataFile(listing: Listing, n: string) {
    n in listing && listing[n].File? && MatchesCsvGlob(n)
  }

  /** The stems of the `*.csv` regular files among `names`, in the order of `names`. */
  function CsvStems(names: seq<string>, listing: Listing): (r: seq<string>)
    ensures forall a :: a in r <==>
      exists k :: 0 <= k < |names| && IsDataFile(listing, names[k]) && Stem(names[k]) == a
  {
    if |names| == 0 then []
    else
      var n := names[|names| - 1];
      var rest := CsvStems(names[..|names| - 1], listing);
      var r := if IsDataFile(listing, n) then rest + [Stem(n)] else rest;
      assert forall k :: 0 <= k < |names| - 1 ==> names[..|names| - 1][k] == names[k];
      r
  }

  /** The names of the data files of a subject directory. */
  function DataFiles(listing: Listing): set<string> {
    set n | n in listing && IsDataFile(listing, n)
  }

  /** The assignments of one subject directory: the sorted stems of its `*.csv` regular files. */
  function Assignments(listing: Listing): (r: seq<string>)
    ensures Sorted(r)
  {
    SortMultiset(multiset(CsvStems(SortSet(listing.Keys), listing)))
  }

  lemma SameElements(a: seq<string>, b: seq<string>)
    requires multiset(a) == multiset(b)
    ensures forall x :: x in a <==> x in b
  {
    forall x ensures x in a <==> x in b {
      assert x in a <==> x in multiset(a);
      assert x in b <==> x in multiset(b);
    }
  }

  /** An assignment is listed exactly when some data file of the directory has it as stem. */
  lemma AssignmentsMembers(listing: Listing, a: string)
    ensures a in Assignments(listing) <==> exists n :: IsDataFile(listing, n) && Stem(n) == a
  {
    var names := SortSet(listing.Keys);
    var stems := CsvStems(names, listing);
    SameElements(Assignments(listing), stems);
    if exists n :: IsDataFile(listing, n) && Stem(n) == a {
      var n :| IsDataFile(listing, n) && Stem(n) == a;
      assert n in names;
      var k :| 0 <= k < |names| && names[k] == n;
      assert IsDataFile(listing, names[k]) && Stem(names[k]) == a;
      assert a in stems;
    }
    if a in stems {
      var k :| 0 <= k < |names| && IsDataFile(listing, names[k]) && Stem(names[k]) == a;
      assert IsDataFile(listing, names[k]);
    }
  }

  /** One assignment per data file: two files with one stem (`.csv` and `.csv.csv`) give the stem twice. */
  lemma AssignmentsCount(listing: Listing)
    ensures |Assignments(listing)| == |DataFiles(listing)|
  {
    var names := SortSet(listing.Keys);
    var stems := CsvStems(names, listing);
    assert |Assignments(listing)| == |multiset(Assignments(listing))| == |multiset(stems)| == |stems|;
    CsvStemsCount(names, listing);
  }

  /** The data files whose names occur in `names`. */
  function DataFilesAmong(names: seq<string>, listing: Listing): set<string> {
    set m | m in names && IsDataFile(listing, m)
  }

  lemma DataFilesAmongSnoc(names: seq<string>, n: string, listing: Listing)
    ensures DataFilesAmong(names + [n], listing)
      == DataFilesAmong(names, listing) + (if IsDataFile(listing, n) then {n} else {})
  {
    forall m
      ensures m in DataFilesAmong(names + [n], listing) <==>
        m in DataFilesAmong(names, listing) + (if IsDataFile(listing, n) then {n} else {})
    {
      assert m in names + [n] <==> m in names || m == n;
    }
  }

  /** One stem per data file: the stem list is as long as the set of data files among the names. */
  lemma {:induction false} CsvStemsCount(names: seq<string>, listing: Listing)
    requires forall i, j :: 0 <= i < j < |names| ==> names[i] != names[j]
    requires forall n :: n in listing ==> n in names
    ensures |CsvStems(names, listing)| == |DataFiles(listing)|
  {
    CsvStemsLength(names, listing);
    assert DataFiles(listing) == DataFilesAmong(names, listing);
  }

  lemma {:induction false} CsvStemsLength(names: seq<string>, listing: Listing)
    requires forall i, j :: 0 <= i < j < |names| ==> names[i] != names[j]
    ensures |CsvStems(names, listing)| == |DataFilesAmong(names, listing)|
    decreases |names|
  {
    if |names| > 0 {
      var xs := names[..|names| - 1];
      var n := names[|names| - 1];
      CsvStemsLength(xs, listing);
      assert names == xs + [n];
      DataFilesAmongSnoc(xs, n, listing);
      assert n !in xs by {
        forall j | 0 <= j < |xs|
          ensures xs[j] != n
        {
          assert xs[j] == names[j];
        }
      }
    }
  }

  /** Kept by the scan at the subject level: a visible directory with at least one assignment. */
  predicate KeptSubject(grade: Listing, s: string) {
    s in grade && IsVisibleDir(s, grade[s]) && |Assignments(grade[s].entries)| > 0
  }

  /** The subjects of one grade directory that hold at least one assignment. */
  function Subjects(grade: Listing): map<string, seq<string>> {
    map s | s in grade && KeptSubject(grade, s) :: Assignments(grade[s].entries)
  }

  /** Kept by the scan at the grade level: a visible directory with at least one kept subject. */
  predicate KeptGrade(l: Listing, g: string) {
    g in l && IsVisibleDir(g, l[g]) && |Subjects(l[g].entries)| > 0
  }

  /**
   `_build_structure`: an absent root gives the empty catalog; otherwise every
   visible grade directory with a visible subject directory holding `*.csv`
   files, and nothing else.
   */
  function BuildCatalog(root: Option<Listing>): (r: Catalog)
    ensures root.None? ==> r == map[]
    ensures forall g :: g in r ==> root.Some? && KeptGrade(root.value, g)
  {
    match root
    case None => map[]
    case Some(l) => map g | g in l && KeptGrade(l, g) :: Subjects(l[g].entries)
  }

  /** A map is non-empty exactly when it has a key. */
  lemma MapNonEmpty<K, V>(m: map<K, V>)
    ensures |m| > 0 <==> exists k :: k in m
  {
    if |m| > 0 {
      assert |m.Keys| > 0;
      var k :| k in m.Keys;
    } else {
      assert m.Keys == {};
    }
  }

  /** A catalog entry `grade/subject` is the assignment list of that subject directory. */
  lemma CatalogEntry(root: Option<Listing>, grade: string, subject: string)
    requires grade in BuildCatalog(root) && subject in BuildCatalog(root)[grade]
    ensures root.Some? && KeptGrade(root.value, grade) && KeptSubject(root.value[grade].entries, subject)
    ensures BuildCatalog(root)[grade][subject] == Assignments(root.value[grade].entries[subject].entries)
  {
  }

  /** A visible grade with a visible subject holding a data file is in the catalog, with that subject. */
  lemma BuildCatalogComplete(l: Listing, g: string, s: string, n: string)
    requires g in l && IsVisibleDir(g, l[g])
    requires s in l[g].entries && IsVisibleDir(s, l[g].entries[s])
    requires IsDataFile(l[g].entries[s].entries, n)
    ensures var cat := BuildCatalog(Some(l));
      g in cat && s in cat[g] && Stem(n) in cat[g][s]
  {
    var subject := l[g].entries[s].entries;
    AssignmentsMembers(subject, Stem(n));
    MapNonEmpty(l[g].entries);
    assert |Assignments(subject)| > 0;
    assert KeptSubject(l[g].entries, s);
    assert s in Subjects(l[g].entries);
    MapNonEmpty(Subjects(l[g].entries));
    assert KeptGrade(l, g);
  }

  /** Hidden entries and plain files never become grades or subjects, and every retained level is non-empty. */
  lemma CatalogShape(root: Option<Listing>, g: string, s: string)
    requires g in BuildCatalog(root)
    ensures root.Some? && g in root.value && root.value[g].Dir? && !IsHidden(g)
    ensures |BuildCatalog(root)[g]| > 0
    ensures s in BuildCatalog(root)[g] ==>
      var grade := root.value[g].entries;
      s in grade && grade[s].Dir? && !IsHidden(s) && |BuildCatalog(root)[g][s]| > 0
  {
    if s in BuildCatalog(root)[g] {
      CatalogEntry(root, g, s);
    }
  }

  // Lookups.

  /** `get_grades`. */
  function Grades(cat: Catalog): (r: seq<string>)
    ensures Sorted(r) && |r| == |cat|
    ensures forall g :: g in r <==> g in cat
    ensures forall i, j :: 0 <= i < j < |r| ==> r[i] != r[j]
  {
    SortSet(cat.Keys)
  }

  /** `get_subjects`: the sorted subjects of a grade, empty for an unknown grade. */
  function SubjectsOf(cat: Catalog, grade: string): (r: seq<string>)
    ensures Sorted(r)
    ensures grade !in cat ==> r == []
    ensures forall s :: s in r <==> grade in cat && s in cat[grade]
    ensures grade in cat ==> |r| == |cat[grade]|
    ensures forall i, j :: 0 <= i < j < |r| ==> r[i] != r[j]
  {
    if grade in cat then SortSet(cat[grade].Keys) else []
  }

  /** `get_assignments`: the stored assignments sorted again, empty when grade or subject is unknown. */
  function AssignmentsOf(cat: Catalog, grade: string, subject: string): (r: seq<string>)
    ensures Sorted(r)
    ensures grade !in cat || subject !in cat[grade] ==> r == []
    ensures grade in cat && subject in cat[grade] ==> multiset(r) == multiset(cat[grade][subject])
  {
    if grade in cat && subject in cat[grade] then SortMultiset(multiset(cat[grade][subject])) else []
  }

  /** On a scanned catalog, sorting again changes nothing: `get_assignments` returns the stored list. */
  lemma AssignmentsOfBuilt(root: Option<Listing>, grade: string, subject: string)
    requires grade in BuildCatalog(root) && subject in BuildCatalog(root)[grade]
    ensures AssignmentsOf(BuildCatalog(root), grade, subject) == BuildCatalog(root)[grade][subject]
  {
    var cat := BuildCatalog(root);
    SortedPermutationUnique(AssignmentsOf(cat, grade, subject), cat[grade][subject]);
  }

  /** `check_data_exists`: the root exists and the scan found something. */
  predicate DataExists(root: Option<Listing>, cat: Catalog): (b: bool)
    ensures b <==> root.Some? && exists g :: g in cat
  {
    if |cat| == 0 then false
    else
      MapNonEmpty(cat);
      root.Some?
  }

  /** Below the root, `g/s/n` is a data file inside a visible subject of a visible grade. */
  predicate HoldsData(l: Listing, g: string, s: string, n: string) {
    g in l && IsVisibleDir(g, l[g])
    && s in l[g].entries && IsVisibleDir(s, l[g].entries[s])
    && IsDataFile(l[g].entries[s].entries, n)
  }

  /** Some visible grade holds a visible subject with a data file. */
  ghost predicate HasDataFile(l: Listing) {
    exists g, s, n :: HoldsData(l, g, s, n)
  }

  /** Every catalogued subject lists at least one assignment, so a non-empty catalog points at a data file. */
  lemma CatalogWitness(root: Option<Listing>, g: string, s: string)
    requires g in BuildCatalog(root) && s in BuildCatalog(root)[g]
    ensures root.Some? && HasDataFile(root.value)
  {
    var cat := BuildCatalog(root);
    CatalogEntry(root, g, s);
    var subject := root.value[g].entries[s].entries;
    AssignmentsMembers(subject, cat[g][s][0]);
    var n :| IsDataFile(subject, n) && Stem(n) == cat[g][s][0];
    assert HoldsData(root.value, g, s, n);
  }

  /** A non-empty catalog names a grade, a subject and a data file below the root. */
  lemma NonEmptyCatalogHoldsData(l: Listing)
    requires |BuildCatalog(Some(l))| > 0
    ensures HasDataFile(l)
  {
    var cat := BuildCatalog(Some(l));
    MapNonEmpty(cat);
    var g :| g in cat;
    MapNonEmpty(cat[g]);
    var s :| s in cat[g];
    CatalogWitness(Some(l), g, s);
  }

  /** A data file below a visible subject of a visible grade makes the catalog non-empty. */
  lemma HoldsDataNonEmptyCatalog(l: Listing, g: string, s: string, n: string)
    requires HoldsData(l, g, s, n)
    ensures |BuildCatalog(Some(l))| > 0
  {
    BuildCatalogComplete(l, g, s, n);
    assert g in BuildCatalog(Some(l));
  }

  /** Demo data exists exactly when some visible grade holds a visible subject with a data file. */
  lemma DataExistsIff(root: Option<Listing>)
    ensures DataExists(root, BuildCatalog(root)) <==> root.Some? && HasDataFile(root.value)
  {
    if DataExists(root, BuildCatalog(root)) {
      NonEmptyCatalogHoldsData(root.value);
    }
    if root.Some? && HasDataFile(root.value) {
      var g, s, n :| HoldsData(root.value, g, s, n);
      HoldsDataNonEmptyCatalog(root.value, g, s, n);
    }
  }


  // Paths.

  /** `_dataset_path`: `grade/subject/<assignment>.csv` below the root, or nothing when a part is empty. */
  function DatasetPath(grade: string, subject: string, assignment: string): (r: Option<seq<string>>)
    ensures r.None? <==> grade == "" || subject == "" || assignment == ""
    ensures r.Some? ==> (|r.value| == 3 && r.value[0] == grade && r.value[1] == subject
      && Stem(r.value[2]) == assignment && MatchesCsvGlob(r.value[2])
      && |r.value[2]| == |assignment| + |CsvExtension|)
  {
    if grade == "" || subject == "" || assignment == "" then None
    else
      StemOfCsvName(assignment + CsvExtension);
      Some([grade, subject, assignment + CsvExtension])
  }

  /** The entry a relative path names below the root, if it exists: the empty path names the root itself. */
  function Lookup(root: Option<Listing>, path: seq<string>): (r: Option<Entry>)
    ensures root.None? ==> r.None?
    ensures root.Some? && |path| == 0 ==> r == Some(Dir(root.value))
    ensures r.Some? && |path| > 0 ==> path[0] in root.value
    decreases |path|
  {
    if root.None? then None
    else if |path| == 0 then Some(Dir(root.value))
    else if path[0] !in root.value then None
    else if |path| == 1 then Some(root.value[path[0]])
    else
      match root.value[path[0]]
      case File(_) => None
      case Dir(sub) => Lookup(Some(sub), path[1..])
  }

  /** Walking one more name: it must be an entry of the directory the path before it names. */
  lemma {:induction false} LookupSnoc(root: Option<Listing>, path: seq<string>, name: string)
    ensures Lookup(root, path + [name]) ==
      match Lookup(root, path)
      case Some(Dir(sub)) => if name in sub then Some(sub[name]) else None
      case _ => None
    decreases |path|
  {
    if root.Some? && |path| > 0 && path[0] in root.value && root.value[path[0]].Dir? {
      assert (path + [name])[1..] == path[1..] + [name];
      LookupSnoc(Some(root.value[path[0]].entries), path[1..], name);
    }
  }

  /** The entry at `grade/subject/name` below the root: present only when both levels are directories. */
  function EntryAt(root: Option<Listing>, grade: string, subject: string, name: string): Option<Entry> {
    if root.Some? && grade in root.value && root.value[grade].Dir?
      && subject in root.value[grade].entries && root.value[grade].entries[subject].Dir?
      && name in root.value[grade].entries[subject].entries
    then Some(root.value[grade].entries[subject].entries[name])
    else None
  }

  /** A three-part lookup walks grade, then subject, then name. */
  lemma LookupThree(root: Option<Listing>, grade: string, subject: string, name: string)
    ensures Lookup(root, [grade, subject, name]) == EntryAt(root, grade, subject, name)
  {
    var p := [grade, subject, name];
    assert p[1..] == [subject, name] && p[1..][1..] == [name];
    if root.Some? && grade in root.value && root.value[grade].Dir? {
      var g := root.value[grade].entries;
      assert Lookup(root, p) == Lookup(Some(g), [subject, name]);
      if subject in g && g[subject].Dir? {
        assert Lookup(Some(g), [subject, name]) == Lookup(Some(g[subject].entries), [name]);
      }
    }
  }

  /** `get_demo_file`: the dataset path when it names an existing entry. */
  function DemoFile(root: Option<Listing>, grade: string, subject: string, assignment: string): (r: Option<seq<string>>)
    ensures r.Some? ==> DatasetPath(grade, subject, assignment) == r && Lookup(root, r.value).Some?
    ensures r.None? ==> (DatasetPath(grade, subject, assignment).None?
      || Lookup(root, DatasetPath(grade, subject, assignment).value).None?)
  {
    match DatasetPath(grade, subject, assignment)
    case None => None
    case Some(p) => if Lookup(root, p).Some? then Some(p) else None
  }

  /** For non-empty parts, `get_demo_file` finds exactly the entry at `grade/subject/<assignment>.csv`. */
  lemma DemoFileAt(root: Option<Listing>, grade: string, subject: string, assignment: string)
    requires grade != "" && subject != "" && assignment != ""
    ensures DemoFile(root, grade, subject, assignment).Some?
      <==> EntryAt(root, grade, subject, assignment + CsvExtension).Some?
  {
    LookupThree(root, grade, subject, assignment + CsvExtension);
  }

  /** The catalog only lists resolvable datasets, except an assignment spelt `.csv`, which came from a file named `.csv`. */
  lemma ListedAssignmentResolves(root: Option<Listing>, grade: string, subject: string, assignment: string)
    requires grade != "" && subject != ""
    requires grade in BuildCatalog(root) && subject in BuildCatalog(root)[grade]
    requires assignment in BuildCatalog(root)[grade][subject]
    requires assignment != CsvExtension
    ensures DemoFile(root, grade, subject, assignment).Some?
    ensures Lookup(root, DatasetPath(grade, subject, assignment).value).value.File?
  {
    CatalogEntry(root, grade, subject);
    var listing := root.value[grade].entries[subject].entries;
    AssignmentsMembers(listing, assignment);
    var n :| IsDataFile(listing, n) && Stem(n) == assignment;
    StemOfCsvName(n);
    assert n == assignment + CsvExtension;
    assert DatasetPath(grade, subject, assignment) == Some([grade, subject, n]);
    LookupThree(root, grade, subject, n);
    assert EntryAt(root, grade, subject, n) == Some(listing[n]);
  }

  /** A file named `.csv` is listed as assignment `.csv`, but that assignment's path is `.csv.csv`, absent unless such a file exists too. */
  lemma BareExtensionListedButMissing(root: Option<Listing>, grade: string, subject: string)
    requires grade != "" && subject != "" && root.Some?
    requires HoldsData(root.value, grade, subject, CsvExtension)
    requires CsvExtension + CsvExtension !in root.value[grade].entries[subject].entries
    ensures CsvExtension in AssignmentsOf(BuildCatalog(root), grade, subject)
    ensures DemoFile(root, grade, subject, CsvExtension).None?
  {
    assert Stem(CsvExtension) == CsvExtension by {
      StemOfCsvName(CsvExtension);
    }
    BuildCatalogComplete(root.value, grade, subject, CsvExtension);
    var cat := BuildCatalog(root);
    SameElements(AssignmentsOf(cat, grade, subject), cat[grade][subject]);
    DemoFileAt(root, grade, subject, CsvExtension);
  }

  // Loading.

  /** The 4-tuple `(frame, submitted, total, missing)` of `load_csv`. */
  datatype LoadOutcome = LoadOutcome(frame: Option<seq<Row>>, submitted: int, total: int, missing: int)

  /** `(None, 0, 0, 0)`: what every failed load returns. */
  const LoadFailed: LoadOutcome := LoadOutcome(None, 0, 0, 0)

  /** Rows whose score differs from the exact sentinel `Not submitted`. */
  function CountSubmitted(rows: seq<Row>): (n: nat)
    ensures n <= |rows|
    ensures n == 0 <==> forall i :: 0 <= i < |rows| ==> rows[i].score == NotSubmitted
    ensures n == |rows| <==> forall i :: 0 <= i < |rows| ==> rows[i].score != NotSubmitted
  {
    if |rows| == 0 then 0
    else (if rows[0].score != NotSubmitted then 1 else 0) + CountSubmitted(rows[1..])
  }

  /** The rows whose score is exactly the sentinel, in table order. */
  function MissingRows(rows: seq<Row>): (r: seq<Row>)
    ensures forall x :: x in r <==> x in rows && x.score == NotSubmitted
    ensures forall i :: 0 <= i < |r| ==> r[i].score == NotSubmitted
    ensures |r| <= |rows|
  {
    if |rows| == 0 then []
    else (if rows[0].score == NotSubmitted then [rows[0]] else []) + MissingRows(rows[1..])
  }

  /** Every row is submitted or missing: the two counts split the table. */
  lemma {:induction false} SubmittedPlusMissing(rows: seq<Row>)
    ensures CountSubmitted(rows) + |MissingRows(rows)| == |rows|
  {
    if |rows| > 0 {
      SubmittedPlusMissing(rows[1..]);
    }
  }

  /** The positions of the submitted rows. */
  function SubmittedAt(rows: seq<Row>): set<int> {
    set i | 0 <= i < |rows| && rows[i].score != NotSubmitted
  }

  /** Counting splits over concatenation. */
  lemma {:induction false} CountSubmittedAppend(a: seq<Row>, b: seq<Row>)
    ensures CountSubmitted(a + b) == CountSubmitted(a) + CountSubmitted(b)
  {
    if |a| > 0 {
      assert (a + b)[0] == a[0] && (a + b)[1..] == a[1..] + b;
      CountSubmittedAppend(a[1..], b);
    } else {
      assert a + b == b;
    }
  }

  /** The submitted positions of a table are those of all but its last row, plus the last one when submitted. */
  lemma SubmittedAtSnoc(rows: seq<Row>)
    requires |rows| > 0
    ensures var n := |rows| - 1;
      SubmittedAt(rows) == SubmittedAt(rows[..n]) + (if rows[n].score != NotSubmitted then {n} else {})
  {
    var n := |rows| - 1;
    forall i | 0 <= i < n
      ensures rows[..n][i] == rows[i]
    {
    }
  }

  /** The count is the number of positions whose score is not the sentinel. */
  lemma {:induction false} CountSubmittedCounts(rows: seq<Row>)
    ensures CountSubmitted(rows) == |SubmittedAt(rows)|
    decreases |rows|
  {
    if |rows| > 0 {
      var n := |rows| - 1;
      var init := rows[..n];
      CountSubmittedCounts(init);
      assert rows == init + [rows[n]];
      CountSubmittedAppend(init, [rows[n]]);
      assert CountSubmitted([rows[n]]) == if rows[n].score != NotSubmitted then 1 else 0 by {
        assert [rows[n]][1..] == [];
      }
      SubmittedAtSnoc(rows);
      assert n !in SubmittedAt(init);
    }
  }

  /**
   Filtering splits over concatenation and keeps a single row exactly when it
   is a sentinel row: together these say the missing rows are the sentinel
   rows in table order, each as often as it occurs.
   */
  lemma {:induction false} MissingRowsAppend(a: seq<Row>, b: seq<Row>)
    ensures MissingRows(a + b) == MissingRows(a) + MissingRows(b)
    ensures |a| == 1 ==> MissingRows(a) == if a[0].score == NotSubmitted then a else []
  {
    if |a| == 0 {
      assert a + b == b;
    } else {
      var ab := a + b;
      assert ab[0] == a[0] && ab[1..] == a[1..] + b;
      MissingRowsAppend(a[1..], b);
      MissingRowsFront(ab, a, MissingRows(a[1..]), MissingRows(b));
      if |a| == 1 {
        assert a[1..] == [];
      }
    }
  }

  /** The step of `MissingRowsAppend`: the first row of `a` is filtered the same way in front of either tail. */
  lemma MissingRowsFront(ab: seq<Row>, a: seq<Row>, ta: seq<Row>, tb: seq<Row>)
    requires |a| > 0 && |ab| > 0 && ab[0] == a[0]
    requires MissingRows(ab[1..]) == ta + tb && MissingRows(a[1..]) == ta
    ensures MissingRows(ab) == MissingRows(a) + tb
  {
    var head := if a[0].score == NotSubmitted then [a[0]] else [];
    assert MissingRows(ab) == head + (ta + tb);
    assert MissingRows(a) == head + ta;
    AppendAssociative(head, ta, tb);
  }

  lemma AppendAssociative(x: seq<Row>, y: seq<Row>, z: seq<Row>)
    ensures x + (y + z) == (x + y) + z
  {
  }

  /** `load_csv`: the rows and their counts, or `(None, 0, 0, 0)` for a missing, unreadable or misshapen file. */
  function LoadCsv(root: Option<Listing>, grade: string, subject: string, assignment: string): (r: LoadOutcome)
    ensures r.frame.None? ==> r == LoadFailed
    ensures r.frame.Some? <==>
      DatasetPath(grade, subject, assignment).Some?
      && var e := Lookup(root, DatasetPath(grade, subject, assignment).value);
      e.Some? && e.value.File? && e.value.content.Table? && e.value.content.header == ExpectedHeader
    ensures r.frame.Some? ==>
      && r.total == |r.frame.value|
      && r.missing == |MissingRows(r.frame.value)|
      && 0 <= r.submitted <= r.total
      && r.submitted + r.missing == r.total
    ensures r.frame.Some? ==>
      && r.frame.value == Lookup(root, DatasetPath(grade, subject, assignment).value).value.content.rows
      && r.submitted == CountSubmitted(r.frame.value)
  {
    match DatasetPath(grade, subject, assignment)
    case None => LoadFailed
    case Some(p) =>
      match Lookup(root, p)
      case None => LoadFailed
      case Some(Dir(_)) => LoadFailed
      case Some(File(Unparseable)) => LoadFailed
      case Some(File(Table(header, rows))) =>
        if header != ExpectedHeader then LoadFailed
        else
          var submitted := CountSubmitted(rows);
          SubmittedPlusMissing(rows);
          LoadOutcome(Some(rows), submitted, |rows|, |rows| - submitted)
  }

  /** The three counts of `get_dataset_summary`. */
  datatype Counts = Counts(submitted: int, total: int, missing: int)

  /** `get_dataset_summary`: the load's counts without the rows, nothing when the load fails. */
  function DatasetSummary(root: Option<Listing>, grade: string, subject: string, assignment: string): (r: Option<Counts>)
    ensures r.None? <==> LoadCsv(root, grade, subject, assignment).frame.None?
    ensures r.Some? ==> var o := LoadCsv(root, grade, subject, assignment);
      r.value == Counts(o.submitted, o.total, o.missing)
  {
    var o := LoadCsv(root, grade, subject, assignment);
    if o.frame.None? then None else Some(Counts(o.submitted, o.total, o.missing))
  }

  /** A two-row table with one hand-in: two in total, one submitted, one missing. */
  lemma LoadTwoRowExample()
    ensures var rows := [Row("Ann", "88", "Good", "R1"), Row("Bo", "Not submitted", "", "")];
      var root := Some(map["5" := Dir(map["Math" := Dir(map["quiz.csv" := File(Table(ExpectedHeader, rows))])])]);
      DatasetSummary(root, "5", "Math", "quiz") == Some(Counts(1, 2, 1))
  {
    assert "quiz" + CsvExtension == "quiz.csv";
    var p := ["5", "Math", "quiz.csv"];
    assert DatasetPath("5", "Math", "quiz") == Some(p);
    assert p[1..] == ["Math", "quiz.csv"] && p[1..][1..] == ["quiz.csv"];
  }

  /** Renaming the first column makes the load fail with no rows. */
  lemma RenamedHeaderFails(rows: seq<Row>)
    ensures var root := Some(map["5" := Dir(map["Math" := Dir(map["quiz.csv" := File(Table(["Name", "Score", "Feedback", "Rubric"], rows))])])]);
      LoadCsv(root, "5", "Math", "quiz") == LoadFailed
  {
    assert "quiz" + CsvExtension == "quiz.csv";
    var p := ["5", "Math", "quiz.csv"];
    assert DatasetPath("5", "Math", "quiz") == Some(p);
    assert p[1..] == ["Math", "quiz.csv"] && p[1..][1..] == ["quiz.csv"];
    assert ["Name", "Score", "Feedback", "Rubric"][0] != ExpectedHeader[0];
  }
}

=== FILE: dialogs.dfy ===
/**
 The two dialogs whose behaviour is decision logic rather than layout: the
 three-step guided tour (`GuidedTourDialog`) and the required-field check of
 the early-access lead form (`submit_lead`).
 */
module Dialogs {
  import opened PyText

  // The guided tour.

  /** One page of the tour: its heading and its body text. */
  datatype Step = Step(title: string, body: string)

  const TourSteps: seq<Step> := [
    Step("Explore Demo Mode",
      "Start on the Home tab, then tap Try Demo Mode to experience a full grading workflow with sample data."),
    Step("Review Results",
      "Once the simulation finishes, open the Results Viewer to inspect AI-style feedback and export a CSV."),
    Step("Unlock Premium Workflows",
      "Classroom Mode and Live Grading stay locked here - click them anytime to request early access to the full platform.")
  ]

  const LastStep: nat := |TourSteps| - 1

  /** The open dialog's `current_index`. */
  datatype Tour = Tour(index: nat)

  predicate ValidTour(t: Tour) {
    t.index < |TourSteps|
  }

  /** What `refresh_content` puts on screen. */
  datatype TourView = TourView(heading: string, body: string, progress: string, button: string)

  const NextLabel: string := "Next"
  const FinishLabel: string := "Finish"

  function Refresh(t: Tour): (v: TourView)
    requires ValidTour(t)
    ensures v.heading == TourSteps[t.index].title && v.body == TourSteps[t.index].body
    ensures v.button == FinishLabel <==> t.index == LastStep
    ensures v.button == FinishLabel || v.button == NextLabel
  {
    TourView(TourSteps[t.index].title, TourSteps[t.index].body,
      "Step " + NatToString(t.index + 1) + " of " + NatToString(|TourSteps|),
      if t.index == LastStep then FinishLabel else NextLabel)
  }

  /** The progress line counts steps from one. */
  lemma FirstAndLastProgress()
    ensures Refresh(Tour(0)).progress == "Step 1 of 3"
    ensures Refresh(Tour(LastStep)).progress == "Step 3 of 3"
  {
  }

  /** The dialog is showing a step, was accepted by `Finish`, or was rejected by `Skip Tour`. */
  datatype TourState = Showing(tour: Tour) | Accepted | Skipped

  predicate ValidState(s: TourState) {
    s.Showing? ==> ValidTour(s.tour)
  }

  /** `advance`: on the last step it accepts the dialog, otherwise it moves one step on. */
  function Advance(t: Tour): (s: TourState)
    requires ValidTour(t)
    ensures s == Accepted <==> t.index == LastStep
    ensures s != Skipped
    ensures s.Showing? ==> s.tour.index == t.index + 1
    ensures ValidState(s)
  {
    if t.index == LastStep then Accepted else Showing(Tour(t.index + 1))
  }

  datatype Button = NextButton | SkipButton

  /** A press of one of the two buttons; a closed dialog takes no more presses. */
  function Press(s: TourState, b: Button): (r: TourState)
    requires ValidState(s)
    ensures ValidState(r)
  {
    match s
    case Showing(t) => if b == SkipButton then Skipped else Advance(t)
    case _ => s
  }

  /** A sequence of presses, one after the other. */
  function Run(s: TourState, presses: seq<Button>): (r: TourState)
    requires ValidState(s)
    ensures ValidState(r)
    decreases |presses|
  {
    if |presses| == 0 then s else Run(Press(s, presses[0]), presses[1..])
  }

  /** A closed dialog stays closed whatever is pressed. */
  lemma {:induction false} RunClosed(s: TourState, presses: seq<Button>)
    requires !s.Showing?
    ensures Run(s, presses) == s
    decreases |presses|
  {
    if |presses| > 0 {
      RunClosed(s, presses[1..]);
    }
  }

  /**
   From step `i`, as many presses as there are steps left always close the
   tour, and they accept it exactly when every one of them was `Next`.
   */
  lemma {:induction false} RunFromStep(i: nat, presses: seq<Button>)
    requires i < |TourSteps| && |presses| >= |TourSteps| - i
    ensures !Run(Showing(Tour(i)), presses).Showing?
    ensures Run(Showing(Tour(i)), presses) == Accepted <==>
      forall j :: 0 <= j < |TourSteps| - i ==> presses[j] == NextButton
    decreases |TourSteps| - i
  {
    var s := Press(Showing(Tour(i)), presses[0]);
    if presses[0] == SkipButton {
      RunClosed(s, presses[1..]);
    } else if i == LastStep {
      RunClosed(s, presses[1..]);
    } else {
      RunFromStep(i + 1, presses[1..]);
      assert forall j :: 1 <= j < |TourSteps| - i ==> presses[j] == presses[1..][j - 1];
    }
  }

  /** The tour is over after three presses, and finished by `Finish` only if all three were `Next`. */
  lemma TourEndsWithinThreePresses(presses: seq<Button>)
    requires |presses| >= |TourSteps|
    ensures !Run(Showing(Tour(0)), presses).Showing?
    ensures Run(Showing(Tour(0)), presses) == Accepted <==>
      presses[0] == NextButton && presses[1] == NextButton && presses[2] == NextButton
  {
    assert |TourSteps| == 3;
    RunFromStep(0, presses);
    if presses[0] == NextButton && presses[1] == NextButton && presses[2] == NextButton {
      forall j | 0 <= j < 3
        ensures presses[j] == NextButton
      {
        assert j == 0 || j == 1 || j == 2;
      }
    }
  }

  // The early-access lead form.

  /** The form's fields as typed: three text boxes and three drop-down choices. */
  datatype LeadForm = LeadForm(name: string, email: string, school: string, role: string, size: string, timeline: string)

  /**
   The payload handed to the webhook. The time stamp and the platform name
   come from the clock and the operating system and are parameters here.
   */
  datatype Lead = Lead(
    name: string, email: string, school: string,
    role: string, size: string, timeline: string,
    feature: string, timestamp: string, platform: string)

  /** The form is refused with a warning box, or a lead is sent and the user thanked. */
  datatype LeadOutcome = Incomplete(title: string, message: string) | Sent(lead: Lead, thanks: string)

  const IncompleteTitle: string := "Incomplete Form"
  const IncompleteMessage: string := "Please fill in all required fields (Name, Email, School)"

  function ThanksMessage(name: string, feature: string): string {
    "Thanks " + name + "! We'll be in touch soon about early access to " + feature + "."
  }

  /** `submit_lead`: name, email and school are stripped and must all be non-empty. */
  function SubmitLead(form: LeadForm, feature: string, timestamp: string, platform: string): (r: LeadOutcome)
    ensures r.Incomplete? ==> r.title == IncompleteTitle && r.message == IncompleteMessage
    ensures r.Sent? ==>
      && r.lead.role == form.role && r.lead.size == form.size && r.lead.timeline == form.timeline
      && r.lead.feature == feature && r.lead.timestamp == timestamp && r.lead.platform == platform
      && r.thanks == ThanksMessage(r.lead.name, feature)
  {
    var name := Strip(form.name);
    var email := Strip(form.email);
    var school := Strip(form.school);
    if name == "" || email == "" || school == "" then Incomplete(IncompleteTitle, IncompleteMessage)
    else Sent(Lead(name, email, school, form.role, form.size, form.timeline, feature, timestamp, platform),
      ThanksMessage(name, feature))
  }

  /**
   The form is refused exactly when one of the three required fields is
   blank, whitespace only counting as blank.
   */
  lemma SubmitRefusesBlank(form: LeadForm, feature: string, timestamp: string, platform: string)
    ensures SubmitLead(form, feature, timestamp, platform).Incomplete? <==>
      AllSpace(form.name) || AllSpace(form.email) || AllSpace(form.school)
  {
    StripEmptyIffBlank(form.name);
    StripEmptyIffBlank(form.email);
    StripEmptyIffBlank(form.school);
  }

  /** A field that survives stripping: non-empty, no whitespace at either end, and stripping it again changes nothing. */
  lemma TrimmedField(s: string)
    requires Strip(s) != ""
    ensures var t := Strip(s);
      |t| > 0 && !IsSpace(t[0]) && !IsSpace(t[|t| - 1]) && Strip(t) == t
  {
    StripIdempotent(s);
  }

  /**
   A sent lead's required fields are the typed ones without surrounding
   whitespace: non-empty, not starting or ending in whitespace, and a form
   filled in with them again sends the same lead.
   */
  lemma SentFieldsAreTrimmed(form: LeadForm, feature: string, timestamp: string, platform: string)
    requires SubmitLead(form, feature, timestamp, platform).Sent?
    ensures var l := SubmitLead(form, feature, timestamp, platform).lead;
      && l.name == Strip(form.name) && l.email == Strip(form.email) && l.school == Strip(form.school)
      && |l.name| > 0 && !IsSpace(l.name[0]) && !IsSpace(l.name[|l.name| - 1])
      && |l.email| > 0 && !IsSpace(l.email[0]) && !IsSpace(l.email[|l.email| - 1])
      && |l.school| > 0 && !IsSpace(l.school[0]) && !IsSpace(l.school[|l.school| - 1])
      && SubmitLead(LeadForm(l.name, l.email, l.school, form.role, form.size, form.timeline),
           feature, timestamp, platform).lead == l
  {
    var l := SubmitLead(form, feature, timestamp, platform).lead;
    assert l == Lead(Strip(form.name), Strip(form.email), Strip(form.school),
      form.role, form.size, form.timeline, feature, timestamp, platform);
    TrimmedField(form.name);
    TrimmedField(form.email);
    TrimmedField(form.school);
    assert Strip(l.name) == l.name && Strip(l.email) == l.email && Strip(l.school) == l.school;
  }
}

=== FILE: grading.dfy ===
/**
 The decision logic of the demo grading run: the simulated grading
 (`Worker._simulate_grading` with its feedback and rubric texts), the progress
 percentage it reports, the completion summary, and the colour of a score.

 The random score of each submitted row is an input (`draws`), constrained to
 the range `random.randint(70, 95)` draws from.
 */
module Grading {
  import opened Optional
  import opened PyText
  import opened DemoData

  /** One `df.to_dict('records')` entry: column name to cell text. */
  type Record = map<string, string>

  const NameColumn: string := "Student Name"
  const ScoreColumn: string := "Score"
  const UnknownName: string := "Unknown"

  /** `assignment.get('Student Name', 'Unknown')`. */
  function NameOf(rec: Record): string {
    if NameColumn in rec then rec[NameColumn] else UnknownName
  }

  /** `str(assignment.get('Score', ''))`. */
  function ScoreTextOf(rec: Record): string {
    if ScoreColumn in rec then rec[ScoreColumn] else ""
  }

  /** The simulation's test for a missing hand-in: the score text CONTAINS `Not submitted`. */
  predicate LooksUnsubmitted(rec: Record) {
    Contains(ScoreTextOf(rec), NotSubmitted)
  }

  /** The record the loader's row becomes in `to_dict('records')`. */
  function RecordOf(row: Row): (rec: Record)
    ensures NameOf(rec) == row.name && ScoreTextOf(rec) == row.score
  {
    map[NameColumn := row.name, ScoreColumn := row.score, "Feedback" := row.feedback, "Rubric" := row.rubric]
  }

  // Feedback and rubric.

  /** The four bands both `_generate_feedback` and `_generate_rubric` branch on. */
  datatype Band = Excellent | Good | Satisfactory | NeedsImprovement

  /** The feedback band of a score: 90 and up, 80 to 89, 70 to 79, and below 70. */
  function BandOf(score: int): (b: Band)
    ensures b == Excellent <==> score >= 90
    ensures b == Good <==> 80 <= score < 90
    ensures b == Satisfactory <==> 70 <= score < 80
    ensures b == NeedsImprovement <==> score < 70
  {
    if score >= 90 then Excellent
    else if score >= 80 then Good
    else if score >= 70 then Satisfactory
    else NeedsImprovement
  }

  /** Position of a band from best (0) to worst (3). */
  function Rank(b: Band): nat {
    match b
    case Excellent => 0
    case Good => 1
    case Satisfactory => 2
    case NeedsImprovement => 3
  }

  /** A higher score never lands in a worse band. */
  lemma BandMonotone(s1: int, s2: int)
    requires s1 <= s2
    ensures Rank(BandOf(s2)) <= Rank(BandOf(s1))
  {
  }

  /** The verdict sentence `_generate_feedback` opens with in each band. */
  function Verdict(b: Band): string {
    match b
    case Excellent => "Excellent work!"
    case Good => "Good effort!"
    case Satisfactory => "Satisfactory work."
    case NeedsImprovement => "Needs improvement."
  }

  /** The advice that follows the verdict; only the top band names the grade level. */
  function Advice(b: Band, subject: string, gradeLevel: string): string {
    match b
    case Excellent => "Strong understanding of " + subject + " concepts at grade " + gradeLevel + " level."
    case Good => "Solid grasp of key " + subject + " concepts with room for deeper analysis."
    case Satisfactory => "Review core " + subject + " concepts and practice application."
    case NeedsImprovement => "Schedule extra help to strengthen " + subject + " fundamentals."
  }

  /** `_generate_feedback`: the band's verdict followed by advice naming the subject. */
  function Feedback(score: int, subject: string, gradeLevel: string): (r: string)
    ensures StartsWith(r, Verdict(BandOf(score)))
  {
    var b := BandOf(score);
    Verdict(b) + " " + Advice(b, subject, gradeLevel)
  }

  /** The ratings a rubric line uses. */
  datatype Rating = Top | Solid | Fair | NeedsWork

  function Word(r: Rating): string {
    match r
    case Top => "Excellent"
    case Solid => "Good"
    case Fair => "Satisfactory"
    case NeedsWork => "Needs Work"
  }

  /** The content, analysis and presentation ratings `_generate_rubric` gives each band. */
  datatype Ratings = Ratings(content: Rating, analysis: Rating, presentation: Rating)

  function RatingsOf(b: Band): Ratings {
    match b
    case Excellent => Ratings(Top, Top, Solid)
    case Good => Ratings(Solid, Solid, Fair)
    case Satisfactory => Ratings(Fair, NeedsWork, Fair)
    case NeedsImprovement => Ratings(NeedsWork, NeedsWork, NeedsWork)
  }

  /** `_generate_rubric`: the three ratings of the score's band on one line. */
  function Rubric(score: int): (r: string)
    ensures StartsWith(r, "Content: " + Word(RatingsOf(BandOf(score)).content))
  {
    var g := RatingsOf(BandOf(score));
    "Content: " + Word(g.content) + " | Analysis: " + Word(g.analysis) + " | Presentation: " + Word(g.presentation)
  }

  /** The letter that starts each band's name. */
  function Initial(b: Band): char {
    match b
    case Excellent => 'E'
    case Good => 'G'
    case Satisfactory => 'S'
    case NeedsImprovement => 'N'
  }

  /** A band's verdict and its content rating both start with the band's initial. */
  lemma BandTexts(b: Band)
    ensures |Verdict(b)| > 0 && Verdict(b)[0] == Initial(b)
    ensures |Word(RatingsOf(b).content)| > 0 && Word(RatingsOf(b).content)[0] == Initial(b)
  {
    match b
    case Excellent =>
    case Good =>
    case Satisfactory =>
    case NeedsImprovement =>
  }

  /** The feedback starts with the band's initial, and so does the rubric's content rating. */
  lemma TextsShowBand(score: int, subject: string, gradeLevel: string)
    ensures Feedback(score, subject, gradeLevel)[0] == Initial(BandOf(score))
    ensures Rubric(score)[9] == Initial(BandOf(score))
  {
    var b := BandOf(score);
    BandTexts(b);
    var w := Word(RatingsOf(b).content);
    assert Rubric(score)[..9 + |w|] == "Content: " + w;
    assert ("Content: " + w)[9] == w[0];
  }

  /**
   Feedback and rubric split the scores the same way: for one subject and
   grade, two scores get the same feedback exactly when they get the same
   rubric, exactly when they fall in the same band.
   */
  lemma FeedbackAndRubricAgree(s1: int, s2: int, subject: string, gradeLevel: string)
    ensures Feedback(s1, subject, gradeLevel) == Feedback(s2, subject, gradeLevel) <==> BandOf(s1) == BandOf(s2)
    ensures Rubric(s1) == Rubric(s2) <==> BandOf(s1) == BandOf(s2)
  {
    TextsShowBand(s1, subject, gradeLevel);
    TextsShowBand(s2, subject, gradeLevel);
  }

  // The simulated grading.

  /** What the simulation makes of one record, given the score it drew for it. */
  function GradeRecord(rec: Record, draw: int, subject: string, gradeLevel: string): (r: Row)
    requires 70 <= draw <= 95
    ensures r.name == NameOf(rec)
  {
    if LooksUnsubmitted(rec) then Row(NameOf(rec), NotSubmitted, "", "")
    else Row(NameOf(rec), NatToString(draw), Feedback(draw, subject, gradeLevel), Rubric(draw))
  }

  /**
   A record that looks unsubmitted becomes the sentinel row with empty
   feedback and rubric; any other gets a score text that reads back as the
   draw, with the feedback and rubric of that score, which is never in the
   lowest band.
   */
  lemma GradeRecordSpec(rec: Record, draw: int, subject: string, gradeLevel: string)
    requires 70 <= draw <= 95
    ensures var r := GradeRecord(rec, draw, subject, gradeLevel);
      && (LooksUnsubmitted(rec) ==> r == Row(NameOf(rec), NotSubmitted, "", ""))
      && (!LooksUnsubmitted(rec) ==>
        && ParseInt(r.score) == Some(draw)
        && r.feedback == Feedback(draw, subject, gradeLevel)
        && r.rubric == Rubric(draw)
        && BandOf(draw) != NeedsImprovement)
  {
    ParseNatToString(draw);
  }

  /** A graded row carries the sentinel score exactly when its record looked unsubmitted. */
  lemma GradedSentinelIff(rec: Record, draw: int, subject: string, gradeLevel: string)
    requires 70 <= draw <= 95
    ensures GradeRecord(rec, draw, subject, gradeLevel).score == NotSubmitted <==> LooksUnsubmitted(rec)
  {
    if !LooksUnsubmitted(rec) {
      assert !IsDigit(NotSubmitted[0]);
      assert AllDigits(NatToString(draw));
    }
  }

  /** A draw of `random.randint(70, 95)` for every record. */
  predicate ValidDraws(draws: seq<int>, n: nat) {
    |draws| == n && forall i :: 0 <= i < n ==> 70 <= draws[i] <= 95
  }

  /** The rows of a whole run, built in order: record `i` graded with draw `i`. */
  function GradeRows(records: seq<Record>, draws: seq<int>, subject: string, gradeLevel: string): (r: seq<Row>)
    requires ValidDraws(draws, |records|)
    ensures |r| == |records|
    decreases |records|
  {
    if |records| == 0 then []
    else
      var n := |records| - 1;
      GradeRows(records[..n], draws[..n], subject, gradeLevel) + [GradeRecord(records[n], draws[n], subject, gradeLevel)]
  }

  /** A run one record longer ends with that record's row. */
  lemma GradeRowsSnoc(records: seq<Record>, draws: seq<int>, subject: string, gradeLevel: string, n: nat)
    requires ValidDraws(draws, |records|) && n < |records|
    ensures GradeRows(records[..n + 1], draws[..n + 1], subject, gradeLevel)
      == GradeRows(records[..n], draws[..n], subject, gradeLevel) + [GradeRecord(records[n], draws[n], subject, gradeLevel)]
  {
    assert records[..n + 1][..n] == records[..n] && draws[..n + 1][..n] == draws[..n];
  }

  /** A non-empty run is the run of all records but the last, then the last record's row. */
  lemma GradeRowsUnfold(records: seq<Record>, draws: seq<int>, subject: string, gradeLevel: string)
    requires ValidDraws(draws, |records|) && |records| > 0
    ensures var n := |records| - 1;
      var rows := GradeRows(records, draws, subject, gradeLevel);
      && rows[..n] == GradeRows(records[..n], draws[..n], subject, gradeLevel)
      && rows[n] == GradeRecord(records[n], draws[n], subject, gradeLevel)
  {
  }

  /** Row `i` of a run is record `i` graded with draw `i`. */
  lemma {:induction false} GradeRowsAt(records: seq<Record>, draws: seq<int>, subject: string, gradeLevel: string, i: nat)
    requires ValidDraws(draws, |records|) && i < |records|
    ensures GradeRows(records, draws, subject, gradeLevel)[i] == GradeRecord(records[i], draws[i], subject, gradeLevel)
    decreases |records|
  {
    var n := |records| - 1;
    GradeRowsUnfold(records, draws, subject, gradeLevel);
    if i < n {
      GradeRowsAt(records[..n], draws[..n], subject, gradeLevel, i);
      assert records[..n][i] == records[i] && draws[..n][i] == draws[i];
      var rows := GradeRows(records, draws, subject, gradeLevel);
      assert rows[..n][i] == rows[i];
    }
  }

  /** `int((idx + 1) / total * 100)`, read over exact rationals. */
  function ProgressPercent(idx: nat, total: nat): (p: nat)
    requires idx < total
    ensures p <= 100
    ensures p == 100 <==> idx == total - 1
  {
    PercentBounds(idx, total);
    (idx + 1) * 100 / total
  }

  lemma MulLe(x: int, y: int, d: nat)
    requires x <= y
    ensures x * d <= y * d
  {
  }

  /** `q = x / d` is the largest `q` with `q * d <= x`. */
  lemma DivBounds(x: nat, d: nat)
    requires d > 0
    ensures (x / d) * d <= x < (x / d) * d + d
  {
  }

  lemma PercentBounds(idx: nat, total: nat)
    requires idx < total
    ensures (idx + 1) * 100 / total <= 100
    ensures (idx + 1) * 100 / total == 100 <==> idx == total - 1
  {
    var x := (idx + 1) * 100;
    var q := x / total;
    DivBounds(x, total);
    MulLe(idx + 1, total, 100);
    if q > 100 {
      MulLe(101, q, total);
      assert false;
    }
    if idx < total - 1 {
      MulLe(idx + 2, total, 100);
      if q == 100 {
        assert false;
      }
    } else if q < 100 {
      MulLe(q, 99, total);
      assert false;
    }
  }

  /** The reported percentage never goes down as the run advances. */
  lemma ProgressMonotone(i: nat, j: nat, total: nat)
    requires i <= j < total
    ensures ProgressPercent(i, total) <= ProgressPercent(j, total)
  {
    MulLe(i + 1, j + 1, 100);
    DivMonotone((i + 1) * 100, (j + 1) * 100, total);
  }

  lemma DivMonotone(a: nat, b: nat, d: nat)
    requires a <= b && d > 0
    ensures a / d <= b / d
  {
    var qa, qb := a / d, b / d;
    assert a == qa * d + a % d;
    assert b == qb * d + b % d;
    if qa > qb {
      MulLe(qb + 1, qa, d);
      assert false;
    }
  }

  /** One progress signal: the percentage and the `Grading <name>...` message. */
  datatype ProgressSignal = ProgressSignal(percent: nat, message: string)

  function ProgressMessage(name: string): string {
    "Grading " + name + "..."
  }

  /** The signal emitted after grading record `i` of `total`. */
  function SignalAfter(records: seq<Record>, i: nat): ProgressSignal
    requires i < |records|
  {
    ProgressSignal(ProgressPercent(i, |records|), ProgressMessage(NameOf(records[i])))
  }

  /** `progress` holds the signals emitted after the first `n` records. */
  predicate SignalsUpTo(progress: seq<ProgressSignal>, records: seq<Record>, n: nat)
    requires n <= |records|
  {
    |progress| == n && forall i :: 0 <= i < n ==> progress[i] == SignalAfter(records, i)
  }

  lemma SignalsSnoc(progress: seq<ProgressSignal>, records: seq<Record>, n: nat)
    requires n < |records| && SignalsUpTo(progress, records, n)
    ensures SignalsUpTo(progress + [SignalAfter(records, n)], records, n + 1)
  {
  }

  /** After `n` records, the run has graded them in order and emitted one signal for each. */
  predicate RunSoFar(records: seq<Record>, draws: seq<int>, subject: string, gradeLevel: string,
                     results: seq<Row>, progress: seq<ProgressSignal>, n: nat)
    requires ValidDraws(draws, |records|) && n <= |records|
  {
    results == GradeRows(records[..n], draws[..n], subject, gradeLevel) && SignalsUpTo(progress, records, n)
  }

  /** Grading record `n` and emitting its signal extends a run over `n` records to `n + 1`. */
  lemma RunStep(records: seq<Record>, draws: seq<int>, subject: string, gradeLevel: string,
                results: seq<Row>, progress: seq<ProgressSignal>, n: nat)
    requires ValidDraws(draws, |records|) && n < |records|
    requires RunSoFar(records, draws, subject, gradeLevel, results, progress, n)
    ensures RunSoFar(records, draws, subject, gradeLevel,
      results + [GradeRecord(records[n], draws[n], subject, gradeLevel)],
      progress + [ProgressSignal(ProgressPercent(n, |records|), ProgressMessage(NameOf(records[n])))], n + 1)
  {
    GradeRowsSnoc(records, draws, subject, gradeLevel, n);
    SignalsSnoc(progress, records, n);
  }

  /** A run over every record is the whole run. */
  lemma RunDone(records: seq<Record>, draws: seq<int>, subject: string, gradeLevel: string,
                results: seq<Row>, progress: seq<ProgressSignal>)
    requires ValidDraws(draws, |records|)
    requires RunSoFar(records, draws, subject, gradeLevel, results, progress, |records|)
    ensures results == GradeRows(records, draws, subject, gradeLevel)
    ensures |progress| == |records|
    ensures forall i :: 0 <= i < |records| ==> progress[i] == SignalAfter(records, i)
  {
    assert records[..|records|] == records && draws[..|records|] == draws;
  }

  /**
   `_simulate_grading`: grades the records one by one and emits a progress
   signal after each.
   */
  method SimulateGrading(records: seq<Record>, subject: string, gradeLevel: string, draws: seq<int>)
    returns (results: seq<Row>, progress: seq<ProgressSignal>)
    requires ValidDraws(draws, |records|)
    ensures results == GradeRows(records, draws, subject, gradeLevel)
    ensures |progress| == |records|
    ensures forall i :: 0 <= i < |records| ==>
      progress[i] == ProgressSignal(ProgressPercent(i, |records|), ProgressMessage(NameOf(records[i])))
  {
    results := [];
    progress := [];
    var total := |records|;
    for idx := 0 to total
      invariant RunSoFar(records, draws, subject, gradeLevel, results, progress, idx)
    {
      var studentName := NameOf(records[idx]);
      RunStep(records, draws, subject, gradeLevel, results, progress, idx);
      results := results + [GradeRecord(records[idx], draws[idx], subject, gradeLevel)];
      progress := progress + [ProgressSignal(ProgressPercent(idx, total), ProgressMessage(studentName))];
    }
    RunDone(records, draws, subject, gradeLevel, results, progress);
  }

  // The completion summary.

  /** The names of the rows whose score is exactly the sentinel, in order. */
  function MissingNames(results: seq<Row>): (r: seq<string>)
    ensures |r| == |MissingRows(results)|
    ensures forall i :: 0 <= i < |r| ==> r[i] == MissingRows(results)[i].name
  {
    var rows := MissingRows(results);
    seq(|rows|, i requires 0 <= i < |rows| => rows[i].name)
  }

  /** The missing names of two runs of rows are those of the first followed by those of the second. */
  lemma MissingNamesAppend(a: seq<Row>, b: seq<Row>)
    ensures MissingNames(a + b) == MissingNames(a) + MissingNames(b)
  {
    MissingRowsAppend(a, b);
  }

  /** The names shown in the summary: at most five, in order, and whether more were cut off. */
  datatype Preview = Preview(shown: seq<string>, truncated: bool)

  const PreviewLimit: nat := 5

  function PreviewOf(names: seq<string>): (p: Preview)
    ensures |p.shown| == if |names| > PreviewLimit then PreviewLimit else |names|
    ensures p.shown == names[..|p.shown|]
    ensures p.truncated <==> |names| > PreviewLimit
    ensures !p.truncated ==> p.shown == names
  {
    if |names| > PreviewLimit then Preview(names[..PreviewLimit], true) else Preview(names, false)
  }

  /** `", ".join(shown)`, followed by `", ..."` when names were cut off. */
  function PreviewText(p: Preview): (r: string)
    ensures |p.shown| > 0 ==> r == Join(", ", p.shown + (if p.truncated then ["..."] else []))
    ensures |p.shown| == 0 && !p.truncated ==> r == ""
    ensures |p.shown| > 0 ==> StartsWith(r, p.shown[0])
    ensures p.truncated ==> EndsWith(r, ", ...")
    ensures !p.truncated && |p.shown| > 0 ==> EndsWith(r, p.shown[|p.shown| - 1])
  {
    var r := Join(", ", p.shown) + (if p.truncated then ", ..." else "");
    PreviewTextEnds(p.shown, p.truncated);
    if |p.shown| == 0 then r
    else
      PreviewTextJoins(p.shown, p.truncated);
      r
  }

  /** The preview line is the shown names, and `...` when names were cut off, joined with `, `. */
  lemma PreviewTextJoins(shown: seq<string>, truncated: bool)
    requires |shown| > 0
    ensures Join(", ", shown) + (if truncated then ", ..." else "") ==
      Join(", ", shown + (if truncated then ["..."] else []))
  {
    if truncated {
      JoinSnoc(", ", shown, "...");
      EllipsisSplit();
    } else {
      assert shown + [] == shown;
    }
  }

  /** The cut-off marker is the separator followed by `...`. */
  lemma EllipsisSplit()
    ensures ", " + "..." == ", ..."
  {
  }

  /** The preview line starts with the first shown name and ends in `, ...` or the last shown name. */
  lemma PreviewTextEnds(shown: seq<string>, truncated: bool)
    ensures var r := Join(", ", shown) + (if truncated then ", ..." else "");
      && (|shown| > 0 ==> StartsWith(r, shown[0]))
      && (truncated ==> EndsWith(r, ", ..."))
      && (!truncated && |shown| > 0 ==> EndsWith(r, shown[|shown| - 1]))
  {
    var j := Join(", ", shown);
    if |shown| > 0 {
      StartsWithAppend(j, if truncated then ", ..." else "", shown[0]);
    }
    EndsWithAppend(j, if truncated then ", ..." else "");
    if !truncated {
      assert j + "" == j;
    }
  }

  /** The counts and the lines of the completion message of `demo_grading_complete`. */
  datatype Summary = Summary(submitted: nat, missing: nat, lines: seq<string>)

  function CompletionSummary(results: seq<Row>): (s: Summary)
    ensures s.submitted + s.missing == |results|
    ensures s.missing == |MissingNames(results)|
    ensures |s.lines| == (if s.missing > 0 then 3 else 2)
    ensures s.lines[0] == "Assignments graded: " + NatToString(s.submitted)
    ensures s.lines[1] == "Awaiting submission: " + NatToString(s.missing)
    ensures s.missing > 0 ==> s.lines[2] == "Missing students: " + PreviewText(PreviewOf(MissingNames(results)))
  {
    var submitted := CountSubmitted(results);
    var names := MissingNames(results);
    SubmittedPlusMissing(results);
    var missing := |names|;
    var counts := ["Assignments graded: " + NatToString(submitted), "Awaiting submission: " + NatToString(missing)];
    if missing > 0 then Summary(submitted, missing, counts + ["Missing students: " + PreviewText(PreviewOf(names))])
    else Summary(submitted, missing, counts)
  }

  /** Six missing students: the first five are named, separated by `, `, and the line ends in `, ...`. */
  lemma SixMissingPreview(a: string, b: string, c: string, d: string, e: string, f: string)
    ensures PreviewText(PreviewOf([a, b, c, d, e, f])) ==
      a + (", " + b) + (", " + c) + (", " + d) + (", " + e) + ", ..."
  {
    assert [a, b, c, d, e, f][..PreviewLimit] == [a, b, c, d, e];
    assert [a] + [b] == [a, b] && [a, b] + [c] == [a, b, c];
    assert [a, b, c] + [d] == [a, b, c, d] && [a, b, c, d] + [e] == [a, b, c, d, e];
    JoinSnoc(", ", [a], b);
    JoinSnoc(", ", [a, b], c);
    JoinSnoc(", ", [a, b, c], d);
    JoinSnoc(", ", [a, b, c, d], e);
  }

  // The two readings of "not submitted".

  /** Exact-sentinel rows of `a` sit where `b` also has the sentinel: `a` has no more of them. */
  lemma {:induction false} MissingRowsCovered(a: seq<Row>, b: seq<Row>)
    requires |a| == |b|
    requires forall i :: 0 <= i < |a| ==> a[i].score == NotSubmitted ==> b[i].score == NotSubmitted
    ensures |MissingRows(a)| <= |MissingRows(b)|
  {
    if |a| > 0 {
      MissingRowsCovered(a[1..], b[1..]);
    }
  }

  /** A string contains itself. */
  lemma ContainsSelf(s: string)
    ensures Contains(s, s)
  {
    assert StartsWith(s[0..], s);
  }

  /**
   The loader counts a row as missing when its score IS `Not submitted`; the
   simulation treats it as missing when its score CONTAINS it. So the summary
   after grading never reports fewer missing students than the loader did.
   */
  lemma LoaderMissingAtMostSummaryMissing(rows: seq<Row>, draws: seq<int>, subject: string, gradeLevel: string)
    requires ValidDraws(draws, |rows|)
    ensures var records := seq(|rows|, i requires 0 <= i < |rows| => RecordOf(rows[i]));
      |MissingRows(rows)| <= CompletionSummary(GradeRows(records, draws, subject, gradeLevel)).missing
  {
    var records := seq(|rows|, i requires 0 <= i < |rows| => RecordOf(rows[i]));
    var results := GradeRows(records, draws, subject, gradeLevel);
    forall i | 0 <= i < |rows| && rows[i].score == NotSubmitted
      ensures results[i].score == NotSubmitted
    {
      GradeRowsAt(records, draws, subject, gradeLevel, i);
      ContainsSelf(NotSubmitted);
      assert LooksUnsubmitted(records[i]);
    }
    MissingRowsCovered(rows, results);
  }

  /** A score such as `Not submitted (late)` is counted as submitted by the loader and as missing after grading. */
  lemma ReadingsDiverge(draw: int)
    requires 70 <= draw <= 95
    ensures var row := Row("Cy", "Not submitted (late)", "", "");
      && |MissingRows([row])| == 0
      && CompletionSummary(GradeRows([RecordOf(row)], [draw], "Math", "5")).missing == 1
  {
    var row := Row("Cy", "Not submitted (late)", "", "");
    assert StartsWith(row.score[0..], NotSubmitted);
    assert LooksUnsubmitted(RecordOf(row));
    var results := GradeRows([RecordOf(row)], [draw], "Math", "5");
    assert results == [Row("Cy", NotSubmitted, "", "")];
    assert row.score != NotSubmitted by {
      assert |row.score| != |NotSubmitted|;
    }
  }

  // Score colours.

  /** The text colours of `_score_bucket_color`: `#b91c1c`, `#ca8a04`, `#15803d` and `#1d4ed8`. */
  datatype Colour = Red | Yellow | Green | Blue

  function ColourRank(c: Colour): nat {
    match c
    case Red => 0
    case Yellow => 1
    case Green => 2
    case Blue => 3
  }

  /** `_score_bucket_color` on a score read as a number, or `None` where `float()` fails. */
  function ScoreColour(score: Option<int>): (c: Colour)
    ensures c == Red <==> score.None? || score.value <= 65
    ensures c == Blue <==> score.Some? && score.value > 89
  {
    match score
    case None => Red
    case Some(v) =>
      if v <= 65 then Red
      else if v <= 75 then Yellow
      else if v <= 89 then Green
      else Blue
  }

  /** Colour buckets are ordered like scores: a higher score never gets a lower bucket. */
  lemma ColourMonotone(s1: int, s2: int)
    requires s1 <= s2
    ensures ColourRank(ScoreColour(Some(s1))) <= ColourRank(ScoreColour(Some(s2)))
  {
  }

  /**
   The buckets partition the scores: red up to 65, yellow up to 75, green up to
   89, and blue exactly for the top feedback band; a score that does not read
   as a number is red.
   */
  lemma ColourBands(v: int)
    ensures ScoreColour(None) == Red
    ensures ScoreColour(Some(v)) == Red <==> v <= 65
    ensures ScoreColour(Some(v)) == Yellow <==> 65 < v <= 75
    ensures ScoreColour(Some(v)) == Green <==> 75 < v <= 89
    ensures ScoreColour(Some(v)) == Blue <==> BandOf(v) == Excellent
  {
  }

  /** The colour of a score cell's text: red for text that is not a number, else the bucket of its value. */
  function ScoreTextColour(text: string): (c: Colour)
    ensures c == Red <==> ParseInt(text).None? || ParseInt(text).value <= 65
    ensures |text| > 0 && AllDigits(text) ==> c == ScoreColour(Some(DigitsValue(text)))
  {
    ScoreColour(ParseInt(text))
  }

  /** A score written as `str(n)` gets the bucket of `n`. */
  lemma ScoreTextColourOfNat(n: nat)
    ensures ScoreTextColour(NatToString(n)) == ScoreColour(Some(n))
  {
    ParseNatToString(n);
  }

  /**
   After grading, a row is red exactly when it was not submitted: every
   simulated score is at least 70, above the red bound of 65.
   */
  lemma GradedRowRedIffMissing(rec: Record, draw: int, subject: string, gradeLevel: string)
    requires 70 <= draw <= 95
    ensures var r := GradeRecord(rec, draw, subject, gradeLevel);
      ScoreTextColour(r.score) == Red <==> r.score == NotSubmitted
  {
    var r := GradeRecord(rec, draw, subject, gradeLevel);
    GradedSentinelIff(rec, draw, subject, gradeLevel);
    GradeRecordSpec(rec, draw, subject, gradeLevel);
    if r.score == NotSubmitted {
      assert !IsDigit(NotSubmitted[0]) && !IsDigit(NotSubmitted[1]);
      assert ParseInt(r.score).None?;
    }
  }
}

=== FILE: optional.dfy ===
/** Python's `None` next to a present value. */
module Optional {

  datatype Option<+T> = None | Some(value: T)
}

=== FILE: py_text.dfy ===
/**
 The handful of Python `str` operations the application relies on:
 `isspace`/`strip`, `startswith`, the `in` substring test, `split(sep, 1)`,
 `", ".join(...)`, `str(n)` of an integer and a decimal reading of a score.
 */
module PyText {
  import opened Optional

  /** Python's `str.isspace()` for one character. */
  predicate IsSpace(c: char) {
    ('\t' <= c <= '\r') || ('\U{1c}' <= c <= ' ')
    || c == '\U{85}' || c == '\U{a0}' || c == '\U{1680}'
    || ('\U{2000}' <= c <= '\U{200a}') || c == '\U{2028}' || c == '\U{2029}'
    || c == '\U{202f}' || c == '\U{205f}' || c == '\U{3000}'
  }

  predicate AllSpace(s: string) {
    forall i :: 0 <= i < |s| ==> IsSpace(s[i])
  }

  /** `s.lstrip()`: drops the leading run of whitespace. */
  function StripLeft(s: string): (r: string)
    ensures |r| <= |s| && r == s[|s| - |r|..]
    ensures AllSpace(s[..|s| - |r|])
    ensures |r| > 0 ==> !IsSpace(r[0])
    decreases |s|
  {
    if |s| > 0 && IsSpace(s[0]) then
      var t := s[1..];
      var r := StripLeft(t);
      assert r == t[|t| - |r|..] == s[|s| - |r|..];
      assert s[..|s| - |r|] == [s[0]] + t[..|t| - |r|];
      r
    else s
  }

  /** `s.rstrip()`: drops the trailing run of whitespace. */
  function StripRight(s: string): (r: string)
    ensures |r| <= |s| && r == s[..|r|]
    ensures AllSpace(s[|r|..])
    ensures |r| > 0 ==> !IsSpace(r[|r| - 1])
    decreases |s|
  {
    if |s| > 0 && IsSpace(s[|s| - 1]) then
      var t := s[..|s| - 1];
      var r := StripRight(t);
      assert r == t[..|r|] == s[..|r|];
      assert s[|r|..] == t[|r|..] + [s[|s| - 1]];
      r
    else s
  }

  /** `s.strip()`: whitespace removed at both ends. */
  function Strip(s: string): (r: string)
    ensures |r| <= |s|
    ensures |r| > 0 ==> !IsSpace(r[0]) && !IsSpace(r[|r| - 1])
  {
    StripRight(StripLeft(s))
  }

  /** `s.strip()` is the infix of `s` between a run of leading and a run of trailing whitespace. */
  lemma StripInfix(s: string)
    ensures var i := |s| - |StripLeft(s)|; var r := Strip(s);
      i + |r| <= |s| && r == s[i..i + |r|] && AllSpace(s[..i]) && AllSpace(s[i + |r|..])
  {
    var l := StripLeft(s);
    var r := StripRight(l);
    var i := |s| - |l|;
    SuffixSlices(s, i, |r|);
    assert AllSpace(s[i + |r|..]) by {
      assert s[i + |r|..] == l[|r|..];
    }
  }

  /** Slicing a suffix is slicing the whole at shifted positions. */
  lemma SuffixSlices(s: string, i: nat, k: nat)
    requires i + k <= |s|
    ensures s[i..][..k] == s[i..i + k] && s[i..][k..] == s[i + k..]
  {
  }

  /** Stripping twice is stripping once. */
  lemma StripIdempotent(s: string)
    ensures Strip(Strip(s)) == Strip(s)
  {
    var r := Strip(s);
    assert StripLeft(r) == r;
    assert StripRight(r) == r;
  }

  /** `s.strip()` is empty exactly when `s` is blank. */
  lemma StripEmptyIffBlank(s: string)
    ensures Strip(s) == "" <==> AllSpace(s)
  {
    var i := |s| - |StripLeft(s)|;
    if Strip(s) == "" {
      assert i == |s|;
      assert s == s[..i];
    }
  }

  /** `s.startswith(p)`. */
  predicate StartsWith(s: string, p: string) {
    |p| <= |s| && s[..|p|] == p
  }

  predicate EndsWith(s: string, p: string) {
    |p| <= |s| && s[|s| - |p|..] == p
  }

  /** Appending text keeps every prefix. */
  lemma StartsWithAppend(s: string, t: string, p: string)
    requires StartsWith(s, p)
    ensures StartsWith(s + t, p)
  {
    assert (s + t)[..|p|] == s[..|p|];
  }

  /** A string ends with what was appended to it. */
  lemma EndsWithAppend(s: string, t: string)
    ensures EndsWith(s + t, t)
  {
    assert (s + t)[|s|..] == t;
  }

  /** `sub in s` for strings: `sub` occurs somewhere in `s`. */
  predicate Contains(s: string, sub: string) {
    exists i :: 0 <= i <= |s| && StartsWith(s[i..], sub)
  }

  /** Position of the first occurrence of `c`, if any (`s.find(c)`). */
  function Find(s: string, c: char): (r: Option<nat>)
    ensures r.None? <==> c !in s
    ensures r.Some? ==> r.value < |s| && s[r.value] == c && c !in s[..r.value]
  {
    if |s| == 0 then None
    else if s[0] == c then Some(0)
    else
      match Find(s[1..], c)
      case None => None
      case Some(k) =>
        assert s[..k + 1] == [s[0]] + s[1..][..k];
        Some(k + 1)
  }

  /** `s.split(c, 1)[1]`: the text after the first `c`; `None` where Python raises `IndexError`. */
  function AfterFirst(s: string, c: char): (r: Option<string>)
    ensures r.None? <==> c !in s
    ensures r.Some? ==> exists k :: 0 <= k < |s| && s[k] == c && c !in s[..k] && r.value == s[k + 1..]
  {
    match Find(s, c)
    case None => None
    case Some(k) => Some(s[k + 1..])
  }

  /** `sep.join(parts)`: the parts in order, with `sep` between neighbours only. */
  function Join(sep: string, parts: seq<string>): (r: string)
    ensures |parts| == 0 ==> r == ""
    ensures |parts| == 1 ==> r == parts[0]
    ensures |parts| > 0 ==> StartsWith(r, parts[0]) && EndsWith(r, parts[|parts| - 1])
  {
    if |parts| == 0 then ""
    else if |parts| == 1 then parts[0]
    else parts[0] + sep + Join(sep, parts[1..])
  }

  /** Joining two non-empty runs of parts is joining each and putting one separator between them. */
  lemma {:induction false} JoinAppend(sep: string, a: seq<string>, b: seq<string>)
    requires |a| > 0 && |b| > 0
    ensures Join(sep, a + b) == Join(sep, a) + sep + Join(sep, b)
    decreases |a|
  {
    assert (a + b)[0] == a[0];
    if |a| == 1 {
      assert (a + b)[1..] == b;
    } else {
      assert (a + b)[1..] == a[1..] + b;
      JoinAppend(sep, a[1..], b);
    }
  }

  /** Joining one more part appends the separator and that part. */
  lemma JoinSnoc(sep: string, parts: seq<string>, last: string)
    requires |parts| > 0
    ensures Join(sep, parts + [last]) == Join(sep, parts) + (sep + last)
  {
    JoinAppend(sep, parts, [last]);
  }

  // Decimal text.

  predicate IsDigit(c: char) {
    '0' <= c <= '9'
  }

  predicate AllDigits(s: string) {
    forall i :: 0 <= i < |s| ==> IsDigit(s[i])
  }

  function DigitChar(d: nat): (c: char)
    requires d < 10
    ensures IsDigit(c) && c as int - '0' as int == d
  {
    ('0' as int + d) as char
  }

  /** `str(n)` for a non-negative integer: its shortest decimal spelling. */
  function NatToString(n: nat): (r: string)
    ensures |r| > 0 && AllDigits(r)
    ensures |r| > 1 ==> r[0] != '0'
    decreases n
  {
    if n < 10 then [DigitChar(n)]
    else
      var r := NatToString(n / 10) + [DigitChar(n % 10)];
      assert r[0] == NatToString(n / 10)[0];
      r
  }

  /** The value of a string of decimal digits. */
  function DigitsValue(s: string): nat
    requires AllDigits(s)
    decreases |s|
  {
    if |s| == 0 then 0
    else DigitsValue(s[..|s| - 1]) * 10 + (s[|s| - 1] as int - '0' as int)
  }

  /** A score text read as a number: an optional sign followed by decimal digits, nothing else. */
  function ParseInt(s: string): (r: Option<int>)
    ensures r.Some? ==> 0 < |s| && (AllDigits(s) || ((s[0] == '+' || s[0] == '-') && |s| > 1 && AllDigits(s[1..])))
    ensures |s| > 0 && AllDigits(s) ==> r == Some(DigitsValue(s))
    ensures |s| > 1 && s[0] == '+' && AllDigits(s[1..]) ==> r == Some(DigitsValue(s[1..]))
    ensures |s| > 1 && s[0] == '-' && AllDigits(s[1..]) ==> r == Some(-(DigitsValue(s[1..]) as int))
    ensures |s| > 0 && IsSpace(s[0]) ==> r.None?
  {
    if |s| > 0 && (s[0] == '-' || s[0] == '+') && |s| > 1 && AllDigits(s[1..]) then
      var v: int := DigitsValue(s[1..]);
      Some(if s[0] == '-' then -v else v)
    else if |s| > 0 && AllDigits(s) then Some(DigitsValue(s))
    else None
  }

  /** Reading back `str(n)` gives `n`. */
  lemma {:induction false} DigitsOfNatToString(n: nat)
    ensures DigitsValue(NatToString(n)) == n
    decreases n
  {
    var r := NatToString(n);
    if n >= 10 {
      DigitsOfNatToString(n / 10);
      assert r[..|r| - 1] == NatToString(n / 10);
    }
  }

  /** Parsing `str(n)` gives `n` back. */
  lemma ParseNatToString(n: nat)
    ensures ParseInt(NatToString(n)) == Some(n)
  {
    DigitsOfNatToString(n);
  }

  /** A minus sign in front of `str(n)` reads back as `-n`. */
  lemma ParseNegatedNatToString(n: nat)
    ensures ParseInt("-" + NatToString(n)) == Some(-(n as int))
  {
    var s := "-" + NatToString(n);
    assert s[1..] == NatToString(n);
    DigitsOfNatToString(n);
  }
}

=== FILE: settings.dfy ===
/**
 The preference store (`SettingsStore`): a JSON object of settings seeded
 from fixed defaults and overlaid with the persisted file, read and written by
 key, saved on demand, plus the one-time import of an API key from a `.env`
 file, guarded by the persisted `env_imported` flag.

 The settings file and the `.env` file are values passed in and returned, so
 loading and saving are pure functions and the import is a state transition.
 */
module Settings {
  import opened Optional
  import opened PyText

  /** A JSON value as `json.load` produces it (floats are not modelled). */
  datatype Json =
    | JNull
    | JBool(b: bool)
    | JInt(i: int)
    | JStr(s: string)
    | JList(items: seq<Json>)
    | JObject(fields: map<string, Json>)

  /** The settings document: a JSON object. */
  type Doc = map<string, Json>

  /** Python truthiness of a JSON value, as `if self.get(...)` reads it. */
  predicate Truthy(v: Json) {
    match v
    case JNull => false
    case JBool(b) => b
    case JInt(i) => i != 0
    case JStr(s) => |s| > 0
    case JList(items) => |items| > 0
    case JObject(fields) => |fields| > 0
  }

  const ApiKey: string := "api_key"
  const EnvImported: string := "env_imported"

  /** The default document every load starts from. */
  const Defaults: Doc := map[
    ApiKey := JStr(""),
    "show_rubric_categories" := JBool(true),
    "show_rubric" := JBool(true),
    "dark_mode_enabled" := JBool(false),
    "window_size" := JList([JInt(1000), JInt(700)]),
    "last_selection" := JObject(map["grade" := JStr(""), "subject" := JStr(""), "assignment" := JStr("")]),
    EnvImported := JBool(false),
    "window_geometry" := JNull,
    "tour_completed" := JBool(false)
  ]

  /** The backing file: absent, unreadable (an I/O error or not JSON at all), or the JSON value it holds. */
  datatype SettingsFile = Missing | Unreadable | Stored(content: Json)

  /** A document that holds every default key, as every loaded document does. */
  predicate Complete(doc: Doc) {
    Defaults.Keys <= doc.Keys
  }

  /**
   One element of an iterable handed to `dict.update`, read as a key/value
   pair: a two-element list whose first element is a string, or a
   two-character string (its characters are key and value). `None` where
   `update` raises: an element that is not iterable, or not of length two, or
   whose key is unhashable.
   */
  function PairOf(item: Json): Option<(string, Json)> {
    match item
    case JList(xs) => if |xs| == 2 && xs[0].JStr? then Some((xs[0].s, xs[1])) else None
    case JStr(t) => if |t| == 2 then Some(([t[0]], JStr([t[1]]))) else None
    case _ => None
  }

  /** The pairs of a top-level array, or `None` when some element is not a pair `update` accepts. */
  function PairsOf(items: seq<Json>): (r: Option<seq<(string, Json)>>)
    ensures r.Some? ==> |r.value| == |items| && forall i :: 0 <= i < |items| ==> PairOf(items[i]) == Some(r.value[i])
    ensures r.None? ==> exists i :: 0 <= i < |items| && PairOf(items[i]).None?
    decreases |items|
  {
    if |items| == 0 then Some([])
    else
      match PairOf(items[0])
      case None => None
      case Some(p) =>
        match PairsOf(items[1..])
        case None => None
        case Some(ps) =>
          assert forall i :: 1 <= i < |items| ==> items[i] == items[1..][i - 1];
          Some([p] + ps)
  }

  /** Pair `i` is the last one that sets its key. */
  predicate LastOfKey(ps: seq<(string, Json)>, i: nat)
    requires i < |ps|
  {
    forall j :: i < j < |ps| ==> ps[j].0 != ps[i].0
  }

  /** Some pair sets key `k`. */
  predicate SetsKey(ps: seq<(string, Json)>, k: string) {
    exists i :: 0 <= i < |ps| && ps[i].0 == k
  }

  /**
   `d.update(pairs)`: the pairs are set one after the other, so every key of
   a pair is present afterwards and holds the value of its last pair, and
   every other key keeps its value.
   */
  function UpdatePairs(d: Doc, ps: seq<(string, Json)>): (r: Doc)
    ensures forall k :: k in r <==> k in d || SetsKey(ps, k)
    ensures forall i :: 0 <= i < |ps| && LastOfKey(ps, i) ==> ps[i].0 in r && r[ps[i].0] == ps[i].1
    ensures forall k :: k in d && !SetsKey(ps, k) ==> r[k] == d[k]
    decreases |ps|
  {
    if |ps| == 0 then d
    else
      var n := |ps| - 1;
      var before := UpdatePairs(d, ps[..n]);
      UpdatePairsStep(d, ps, before);
      before[ps[n].0 := ps[n].1]
  }

  /** What one more pair adds to an update by the pairs before it. */
  lemma UpdatePairsStep(d: Doc, ps: seq<(string, Json)>, before: Doc)
    requires |ps| > 0
    requires forall k :: k in before <==> k in d || SetsKey(ps[..|ps| - 1], k)
    requires forall i :: 0 <= i < |ps| - 1 && LastOfKey(ps[..|ps| - 1], i) ==> ps[i].0 in before && before[ps[i].0] == ps[i].1
    requires forall k :: k in d && !SetsKey(ps[..|ps| - 1], k) ==> before[k] == d[k]
    ensures var n := |ps| - 1; var r := before[ps[n].0 := ps[n].1];
      && (forall k :: k in r <==> k in d || SetsKey(ps, k))
      && (forall i :: 0 <= i < |ps| && LastOfKey(ps, i) ==> ps[i].0 in r && r[ps[i].0] == ps[i].1)
      && (forall k :: k in d && !SetsKey(ps, k) ==> r[k] == d[k])
  {
    var n := |ps| - 1;
    var init := ps[..n];
    forall k
      ensures SetsKey(ps, k) <==> SetsKey(init, k) || ps[n].0 == k
    {
      if SetsKey(ps, k) {
        var i :| 0 <= i < |ps| && ps[i].0 == k;
        if i < n {
          assert init[i].0 == k;
        }
      }
      if SetsKey(init, k) {
        var i :| 0 <= i < n && init[i].0 == k;
        assert ps[i].0 == k;
      }
    }
    forall i | 0 <= i < n && LastOfKey(ps, i)
      ensures LastOfKey(init, i)
    {
      forall j | i < j < n
        ensures init[j].0 != init[i].0
      {
        assert init[j] == ps[j] && init[i] == ps[i];
      }
    }
  }

  /**
   `load`: the defaults, overlaid by what the file holds. An object overlays
   them key by key; an array of pairs is applied pair by pair, as
   `dict.update` does. Anything that makes `update` raise, a missing file and
   an unreadable one give exactly the defaults: the partly updated copy is
   discarded.
   */
  function Load(file: SettingsFile): (r: Doc)
    ensures Complete(r)
    ensures !file.Stored? ==> r == Defaults
    ensures file.Stored? && file.content.JObject? ==>
      var stored := file.content.fields;
      && r.Keys == Defaults.Keys + stored.Keys
      && (forall k :: k in stored ==> r[k] == stored[k])
      && (forall k :: k in Defaults && k !in stored ==> r[k] == Defaults[k])
    ensures file.Stored? && file.content.JList? && PairsOf(file.content.items).Some? ==>
      var ps := PairsOf(file.content.items).value;
      && (forall k :: k in r <==> k in Defaults || SetsKey(ps, k))
      && (forall i :: 0 <= i < |ps| && LastOfKey(ps, i) ==> ps[i].0 in r && r[ps[i].0] == ps[i].1)
      && (forall k :: k in Defaults && !SetsKey(ps, k) ==> r[k] == Defaults[k])
    ensures file.Stored? && !file.content.JObject? && !(file.content.JList? && PairsOf(file.content.items).Some?) ==>
      r == Defaults
  {
    match file
    case Stored(JObject(stored)) => Defaults + stored
    case Stored(JList(items)) =>
      (match PairsOf(items)
       case Some(ps) => UpdatePairs(Defaults, ps)
       case None => Defaults)
    case _ => Defaults
  }

  /** `get(key, default)`: the stored value, or `default` for a key the document lacks. */
  function Get(doc: Doc, key: string, default: Json): (r: Json)
    ensures key in doc ==> r == doc[key]
    ensures key !in doc ==> r == default
  {
    if key in doc then doc[key] else default
  }

  /** `store[key]`: `get` with `None` as the default. */
  function Item(doc: Doc, key: string): (r: Json)
    ensures key !in doc ==> r == JNull
    ensures key in doc ==> r == doc[key]
  {
    Get(doc, key, JNull)
  }

  /** `set(key, value)` and `store[key] = value`: only `key` changes, and nothing is written. */
  function Set(doc: Doc, key: string, value: Json): (r: Doc)
    ensures r.Keys == doc.Keys + {key}
    ensures r[key] == value
    ensures forall k :: k in doc && k != key ==> r[k] == doc[k]
  {
    doc[key := value]
  }

  /** Reading a key right after setting it gives the value set; other keys read as before. */
  lemma GetAfterSet(doc: Doc, key: string, value: Json, other: string, default: Json)
    ensures Get(Set(doc, key, value), key, default) == value
    ensures other != key ==> Get(Set(doc, key, value), other, default) == Get(doc, other, default)
  {
  }

  /** `save`: the whole document replaces the file, unless the file cannot be opened for writing. */
  function Save(doc: Doc, file: SettingsFile, writable: bool): (r: SettingsFile)
    ensures writable ==> r == Stored(JObject(doc))
    ensures !writable ==> r == file
  {
    if writable then Stored(JObject(doc)) else file
  }

  /** Saving a complete document and loading it again gives the same document. */
  lemma SaveLoadRoundTrip(doc: Doc, file: SettingsFile)
    requires Complete(doc)
    ensures Load(Save(doc, file, true)) == doc
  {
  }

  /** A freshly loaded document, edited by `set` and saved, loads back as edited. */
  lemma EditSaveReload(file: SettingsFile, key: string, value: Json)
    ensures Load(Save(Set(Load(file), key, value), file, true)) == Set(Load(file), key, value)
  {
    SaveLoadRoundTrip(Set(Load(file), key, value), file);
  }

  // The `.env` import.

  /** The `.env` file: absent, failing to open, or its lines as the file iterator yields them. */
  datatype EnvFile = EnvMissing | EnvUnreadable | EnvLines(lines: seq<string>)

  const ApiKeyPrefix: string := "OPENAI_API_KEY="

  /** A line of `.env` that sets the key: it starts with `OPENAI_API_KEY=` as read, before stripping. */
  predicate IsKeyLine(line: string) {
    StartsWith(line, ApiKeyPrefix)
  }

  /** Stripping a key line keeps its prefix, whose only `=` is its last character. */
  lemma StripKeyLine(line: string)
    requires IsKeyLine(line)
    ensures IsKeyLine(Strip(line))
    ensures Find(Strip(line), '=') == Some(|ApiKeyPrefix| - 1)
  {
    assert line[0] == 'O' && line[|ApiKeyPrefix| - 1] == '=';
    var r := Strip(line);
    assert r[..|ApiKeyPrefix|] == line[..|ApiKeyPrefix|];
    assert '=' !in ApiKeyPrefix[..|ApiKeyPrefix| - 1];
  }

  /** `line.strip().split('=', 1)[1]` for a key line: the stripped text after the prefix. */
  function KeyValue(line: string): (v: string)
    requires IsKeyLine(line)
    ensures |Strip(line)| >= |ApiKeyPrefix| && v == Strip(line)[|ApiKeyPrefix|..]
  {
    StripKeyLine(line);
    AfterFirst(Strip(line), '=').value
  }

  /** The position of the last key line of `lines`, if any. */
  function LastKeyLine(lines: seq<string>): (r: Option<nat>)
    ensures r.None? <==> forall i :: 0 <= i < |lines| ==> !IsKeyLine(lines[i])
    ensures r.Some? ==> (r.value < |lines| && IsKeyLine(lines[r.value])
      && forall j :: r.value < j < |lines| ==> !IsKeyLine(lines[j]))
    decreases |lines|
  {
    if |lines| == 0 then None
    else if IsKeyLine(lines[|lines| - 1]) then Some(|lines| - 1)
    else
      var r := LastKeyLine(lines[..|lines| - 1]);
      assert forall i :: 0 <= i < |lines| - 1 ==> lines[..|lines| - 1][i] == lines[i];
      r
  }

  /** The value the last key line of `lines` carries, if there is a key line. */
  function LastKey(lines: seq<string>): (r: Option<string>)
    ensures r.None? <==> forall i :: 0 <= i < |lines| ==> !IsKeyLine(lines[i])
    ensures r.Some? ==> exists i :: (0 <= i < |lines| && IsKeyLine(lines[i]) && r.value == KeyValue(lines[i])
      && forall j :: i < j < |lines| ==> !IsKeyLine(lines[j]))
  {
    match LastKeyLine(lines)
    case None => None
    case Some(i) => Some(KeyValue(lines[i]))
  }

  /** The document after the key lines of `lines` have been read: the last one wins, and no other key changes. */
  function ApplyKeyLines(doc: Doc, lines: seq<string>): (r: Doc)
    ensures LastKey(lines).None? ==> r == doc
    ensures LastKey(lines).Some? ==> r.Keys == doc.Keys + {ApiKey} && r[ApiKey] == JStr(LastKey(lines).value)
    ensures forall k :: k in doc && k != ApiKey ==> r[k] == doc[k]
  {
    match LastKey(lines)
    case None => doc
    case Some(v) => Set(doc, ApiKey, JStr(v))
  }

  /** The last key line among the first `i + 1` lines: line `i` itself if it is one, else the last among the first `i`. */
  lemma LastKeyLineStep(lines: seq<string>, i: nat)
    requires i < |lines|
    ensures LastKeyLine(lines[..i + 1]) == if IsKeyLine(lines[i]) then Some(i) else LastKeyLine(lines[..i])
  {
    var next := lines[..i + 1];
    assert next[..i] == lines[..i];
  }

  /** Reading one more line: a key line overwrites `api_key`, any other line changes nothing. */
  lemma ApplyKeyLinesStep(doc: Doc, lines: seq<string>, i: nat)
    requires i < |lines|
    ensures ApplyKeyLines(doc, lines[..i + 1]) ==
      if IsKeyLine(lines[i]) then Set(ApplyKeyLines(doc, lines[..i]), ApiKey, JStr(KeyValue(lines[i])))
      else ApplyKeyLines(doc, lines[..i])
  {
    LastKeyLineStep(lines, i);
    if IsKeyLine(lines[i]) {
      KeyLineStep(doc, lines, i);
    } else {
      PlainLineStep(doc, lines, i);
    }
  }

  lemma KeyLineStep(doc: Doc, lines: seq<string>, i: nat)
    requires i < |lines| && IsKeyLine(lines[i])
    requires LastKeyLine(lines[..i + 1]) == Some(i)
    ensures ApplyKeyLines(doc, lines[..i + 1]) == Set(ApplyKeyLines(doc, lines[..i]), ApiKey, JStr(KeyValue(lines[i])))
  {
    var next := lines[..i + 1];
    assert next[i] == lines[i];
    assert LastKey(next) == Some(KeyValue(lines[i]));
    SetTwice(doc, ApplyKeyLines(doc, lines[..i]), JStr(KeyValue(lines[i])));
  }

  lemma PlainLineStep(doc: Doc, lines: seq<string>, i: nat)
    requires i < |lines|
    requires LastKeyLine(lines[..i + 1]) == LastKeyLine(lines[..i])
    ensures ApplyKeyLines(doc, lines[..i + 1]) == ApplyKeyLines(doc, lines[..i])
  {
    var next := lines[..i + 1];
    match LastKeyLine(next)
    case None =>
    case Some(k) =>
      assert next[k] == lines[..i][k];
  }

  /** Setting `api_key` over a document that differs from `doc` at most in `api_key` is setting it in `doc`. */
  lemma SetTwice(doc: Doc, before: Doc, v: Json)
    requires before == doc || exists w :: before == Set(doc, ApiKey, w)
    ensures Set(before, ApiKey, v) == Set(doc, ApiKey, v)
  {
    if before != doc {
      var w :| before == Set(doc, ApiKey, w);
    }
  }

  /** Reading the lines changes nothing but `api_key`. */
  lemma ApplyKeyLinesFrame(doc: Doc, lines: seq<string>)
    ensures forall k :: k != ApiKey ==> (k in ApplyKeyLines(doc, lines) <==> k in doc)
    ensures forall k :: k != ApiKey && k in doc ==> ApplyKeyLines(doc, lines)[k] == doc[k]
  {
  }

  /** The loop over `.env`: every key line overwrites `api_key`, so the last one is kept. */
  method ScanKeyLines(doc: Doc, lines: seq<string>) returns (r: Doc)
    ensures r == ApplyKeyLines(doc, lines)
    ensures LastKey(lines).Some? ==> ApiKey in r && r[ApiKey] == JStr(LastKey(lines).value)
    ensures LastKey(lines).None? ==> r == doc
  {
    r := doc;
    for i := 0 to |lines|
      invariant r == ApplyKeyLines(doc, lines[..i])
    {
      ApplyKeyLinesStep(doc, lines, i);
      if IsKeyLine(lines[i]) {
        r := Set(r, ApiKey, JStr(KeyValue(lines[i])));
      }
    }
    assert lines[..|lines|] == lines;
  }

  /** A store in memory: the document and the backing file. */
  datatype Store = Store(doc: Doc, file: SettingsFile)

  /**
   `_import_from_env_once`: unless the document already says `env_imported`,
   a readable `.env` sets `api_key` from its last key line, sets the flag and
   saves; a missing or unreadable `.env` changes nothing.
   */
  function ImportFromEnvOnce(s: Store, env: EnvFile, writable: bool): (r: Store)
    ensures Truthy(Get(s.doc, EnvImported, JNull)) || !env.EnvLines? ==> r == s
    ensures !Truthy(Get(s.doc, EnvImported, JNull)) && env.EnvLines? ==>
      && Get(r.doc, EnvImported, JNull) == JBool(true)
      && r.doc == Set(ApplyKeyLines(s.doc, env.lines), EnvImported, JBool(true))
      && r.file == Save(r.doc, s.file, writable)
  {
    if Truthy(Get(s.doc, EnvImported, JNull)) then s
    else
      match env
      case EnvLines(lines) =>
        var doc := Set(ApplyKeyLines(s.doc, lines), EnvImported, JBool(true));
        Store(doc, Save(doc, s.file, writable))
      case _ => s
  }

  /** After a successful import, `api_key` holds the last key line's value, or is as before without one. */
  lemma ImportSetsKey(s: Store, lines: seq<string>, writable: bool)
    requires !Truthy(Get(s.doc, EnvImported, JNull))
    ensures var r := ImportFromEnvOnce(s, EnvLines(lines), writable);
      && Truthy(Get(r.doc, EnvImported, JNull))
      && (LastKey(lines).Some? ==> Get(r.doc, ApiKey, JNull) == JStr(LastKey(lines).value))
      && (LastKey(lines).None? ==> Get(r.doc, ApiKey, JNull) == Get(s.doc, ApiKey, JNull))
      && forall k :: k != ApiKey && k != EnvImported ==> Get(r.doc, k, JNull) == Get(s.doc, k, JNull)
  {
    var r := ImportFromEnvOnce(s, EnvLines(lines), writable);
    var applied := ApplyKeyLines(s.doc, lines);
    assert r.doc == Set(applied, EnvImported, JBool(true));
    forall k | k != ApiKey && k != EnvImported
      ensures Get(r.doc, k, JNull) == Get(s.doc, k, JNull)
    {
      assert k in r.doc <==> k in applied;
      assert k in applied <==> k in s.doc;
    }
  }

  /** Once imported, importing again changes neither the document nor the file. */
  lemma ImportIdempotent(s: Store, env: EnvFile, writable: bool)
    ensures var r := ImportFromEnvOnce(s, env, writable);
      ImportFromEnvOnce(r, env, writable) == r
  {
  }

  /** Constructing the store: load the file, then run the one-time import. */
  function Open(file: SettingsFile, env: EnvFile, writable: bool): (r: Store)
    ensures Complete(r.doc)
    ensures env.EnvLines? && writable ==> r.file == Stored(JObject(r.doc)) || r.file == file
  {
    ImportFromEnvOnce(Store(Load(file), file), env, writable)
  }

  /** A second construction against what the first one persisted neither re-imports nor changes anything. */
  lemma OpenTwice(file: SettingsFile, env: EnvFile)
    ensures var first := Open(file, env, true);
      Open(first.file, env, true) == first
  {
    var loaded := Store(Load(file), file);
    var first := Open(file, env, true);
    if !Truthy(Get(loaded.doc, EnvImported, JNull)) && env.EnvLines? {
      SaveLoadRoundTrip(first.doc, file);
    }
  }

  /** With no settings file and no `.env`, a fresh store holds exactly the defaults. */
  lemma FreshStoreIsDefaults(writable: bool)
    ensures Open(Missing, EnvMissing, writable) == Store(Defaults, Missing)
  {
  }

  /** Setting dark mode, saving and reopening reads dark mode back, and every other default is intact. */
  lemma DarkModeSurvivesRestart()
    ensures var first := Open(Missing, EnvMissing, true);
      var saved := Save(Set(first.doc, "dark_mode_enabled", JBool(true)), first.file, true);
      var second := Open(saved, EnvMissing, true);
      && Get(second.doc, "dark_mode_enabled", JNull) == JBool(true)
      && forall k :: k != "dark_mode_enabled" ==> Get(second.doc, k, JNull) == Get(Defaults, k, JNull)
  {
  }

  /**
   A file that cannot be read, and one whose value `dict.update` refuses (a
   number, a boolean, `null`, a string, an array with an element that is not
   a pair), loads as the defaults; so do an empty array and an empty string,
   which update nothing.
   */
  lemma CorruptFileLoadsDefaults(n: int, b: bool, t: string, bad: Json, rest: seq<Json>)
    requires PairOf(bad).None?
    ensures Load(Unreadable) == Defaults && Load(Missing) == Defaults
    ensures Load(Stored(JInt(n))) == Defaults && Load(Stored(JBool(b))) == Defaults && Load(Stored(JNull)) == Defaults
    ensures Load(Stored(JStr(t))) == Defaults
    ensures Load(Stored(JList([]))) == Defaults
    ensures Load(Stored(JList([bad] + rest))) == Defaults
  {
    assert PairsOf([bad] + rest).None? by {
      assert ([bad] + rest)[0] == bad;
    }
  }

  /** An array of pairs is merged like an object: `[["dark_mode_enabled", true]]` turns dark mode on and keeps the other defaults. */
  lemma PairArrayMerges()
    ensures var r := Load(Stored(JList([JList([JStr("dark_mode_enabled"), JBool(true)])])));
      && r["dark_mode_enabled"] == JBool(true)
      && forall k :: k in Defaults && k != "dark_mode_enabled" ==> r[k] == Defaults[k]
  {
    var items := [JList([JStr("dark_mode_enabled"), JBool(true)])];
    var ps := [("dark_mode_enabled", JBool(true))];
    assert PairOf(items[0]) == Some(ps[0]);
    assert items[1..] == [];
    assert PairsOf(items[1..]) == Some([]);
    assert [ps[0]] + [] == ps;
    assert PairsOf(items) == Some(ps);
    assert LastOfKey(ps, 0);
    forall k | k != "dark_mode_enabled"
      ensures !SetsKey(ps, k)
    {
    }
  }
}

=== FILE: string_order.dfy ===
/**
 Python's ordering of `str` values (code point by code point, a proper prefix
 first) and the `sorted(...)` of a collection of strings under it.
 */
module StringOrder {

  /** `a <= b` on Python strings. */
  predicate Below(a: string, b: string)
    decreases |a|
  {
    |a| == 0 || (|b| > 0 && (a[0] < b[0] || (a[0] == b[0] && Below(a[1..], b[1..]))))
  }

  /** Every earlier element is `<=` every later one. */
  predicate Sorted(s: seq<string>) {
    forall i, j :: 0 <= i < j < |s| ==> Below(s[i], s[j])
  }

  /** `x` is a least element of `m`. */
  predicate IsLeast(x: string, m: multiset<string>) {
    x in m && forall y :: y in m ==> Below(x, y)
  }

  lemma {:induction false} BelowReflexive(a: string)
    ensures Below(a, a)
    decreases |a|
  {
    if |a| > 0 {
      BelowReflexive(a[1..]);
    }
  }

  lemma {:induction false} BelowAntisymmetric(a: string, b: string)
    requires Below(a, b) && Below(b, a)
    ensures a == b
    decreases |a|
  {
    if |a| > 0 {
      BelowAntisymmetric(a[1..], b[1..]);
      assert a == [a[0]] + a[1..];
      assert b == [b[0]] + b[1..];
    }
  }

  lemma {:induction false} BelowTransitive(a: string, b: string, c: string)
    requires Below(a, b) && Below(b, c)
    ensures Below(a, c)
    decreases |a|
  {
    if |a| > 0 && a[0] == b[0] && b[0] == c[0] {
      BelowTransitive(a[1..], b[1..], c[1..]);
    }
  }

  lemma {:induction false} BelowTotal(a: string, b: string)
    ensures Below(a, b) || Below(b, a)
    decreases |a|
  {
    if |a| > 0 && |b| > 0 && a[0] == b[0] {
      BelowTotal(a[1..], b[1..]);
    }
  }

  /** Any two least elements of a multiset coincide. */
  lemma LeastUnique(m: multiset<string>)
    ensures forall x, y :: IsLeast(x, m) && IsLeast(y, m) ==> x == y
  {
    forall x, y | IsLeast(x, m) && IsLeast(y, m)
      ensures x == y
    {
      BelowAntisymmetric(x, y);
    }
  }

  /** A non-empty finite multiset of strings has a least element. */
  lemma {:induction false} LeastExists(m: multiset<string>)
    requires |m| > 0
    ensures exists x :: IsLeast(x, m)
    decreases |m|
  {
    var z :| z in m;
    var rest := m - multiset{z};
    if |rest| == 0 {
      assert m == multiset{z};
      BelowReflexive(z);
      assert IsLeast(z, m);
    } else {
      LeastExists(rest);
      var x :| IsLeast(x, rest);
      BelowTotal(x, z);
      if Below(x, z) {
        assert IsLeast(x, m);
      } else {
        forall y | y in m
          ensures Below(z, y)
        {
          if y == z {
            BelowReflexive(z);
          } else {
            assert y in rest;
            BelowTransitive(z, x, y);
          }
        }
        assert IsLeast(z, m);
      }
    }
  }

  /** `sorted(...)` of a multiset of strings: a sorted permutation of it. */
  function SortMultiset(m: multiset<string>): (r: seq<string>)
    ensures multiset(r) == m
    ensures Sorted(r)
    decreases |m|
  {
    if |m| == 0 then []
    else
      LeastExists(m);
      LeastUnique(m);
      var x :| IsLeast(x, m);
      var rest := SortMultiset(m - multiset{x});
      LeastThenSorted(x, m, rest);
      [x] + rest
  }

  /** Putting a least element in front of a sorted rest gives a sorted permutation. */
  lemma LeastThenSorted(x: string, m: multiset<string>, rest: seq<string>)
    requires IsLeast(x, m)
    requires Sorted(rest) && multiset(rest) == m - multiset{x}
    ensures Sorted([x] + rest) && multiset([x] + rest) == m
  {
    forall j | 0 <= j < |rest|
      ensures Below(x, rest[j])
    {
      assert rest[j] in multiset(rest);
    }
  }

  /** `sorted(d.keys())`: the keys of a set in order, each exactly once. */
  function SortSet(s: set<string>): (r: seq<string>)
    ensures Sorted(r)
    ensures forall x :: x in s <==> x in r
    ensures |r| == |s|
    ensures forall i, j :: 0 <= i < j < |r| ==> r[i] != r[j]
  {
    var r := SortMultiset(multiset(s));
    SetContentsDistinct(r, s);
    assert forall x :: x in r <==> x in multiset(r);
    assert |r| == |multiset(r)|;
    r
  }

  /** The head of a non-empty sorted sequence is a least element of its contents. */
  lemma SortedHeadIsLeast(a: seq<string>)
    requires Sorted(a) && |a| > 0
    ensures IsLeast(a[0], multiset(a))
  {
    forall y | y in multiset(a)
      ensures Below(a[0], y)
    {
      assert y in a;
      var k :| 0 <= k < |a| && a[k] == y;
      if k == 0 {
        BelowReflexive(y);
      }
    }
  }

  /** The tail of a sorted sequence is sorted and holds the rest of its contents. */
  lemma SortedTail(a: seq<string>)
    requires Sorted(a) && |a| > 0
    ensures Sorted(a[1..])
    ensures multiset(a[1..]) == multiset(a) - multiset{a[0]}
  {
    assert a == [a[0]] + a[1..];
  }

  /** An element found at two positions occurs at least twice. */
  lemma CountsTwice(r: seq<string>, i: int, j: int)
    requires 0 <= i < j < |r| && r[i] == r[j]
    ensures multiset(r)[r[i]] >= 2
  {
    assert r == r[..j] + [r[j]] + r[j + 1..];
    assert r[..j][i] == r[i];
  }

  /** A sequence with the contents of a set repeats no element. */
  lemma SetContentsDistinct(r: seq<string>, s: set<string>)
    requires multiset(r) == multiset(s)
    ensures forall i, j :: 0 <= i < j < |r| ==> r[i] != r[j]
  {
    forall i, j | 0 <= i < j < |r|
      ensures r[i] != r[j]
    {
      if r[i] == r[j] {
        CountsTwice(r, i, j);
        assert false;
      }
    }
  }

  /** The order of `sorted` is unique: two sorted permutations of one multiset are equal. */
  lemma {:induction false} SortedPermutationUnique(a: seq<string>, b: seq<string>)
    requires Sorted(a) && Sorted(b) && multiset(a) == multiset(b)
    ensures a == b
    decreases |a|
  {
    if |a| > 0 {
      assert |b| > 0 by {
        assert |b| == |multiset(b)|;
      }
      SortedHeadIsLeast(a);
      SortedHeadIsLeast(b);
      LeastUnique(multiset(a));
      assert a[0] == b[0];
      SortedTail(a);
      SortedTail(b);
      SortedPermutationUnique(a[1..], b[1..]);
      assert a == [a[0]] + a[1..];
      assert b == [b[0]] + b[1..];
    }
  }
}
